=== FILE: README.md ===
# dramabox catalogue core, modelled in Dafny

This project models the decision rules and store updates of a Django
drama-streaming back end. Everything around them is framework glue.

- **Catalogue classification.** The per-series properties "currently
  featured", "trending" and "upcoming". The boolean filters of the API
  filter-set. The four lists of the home page.
- **Catalogue store.** A relational store of series, seasons, episodes,
  reviews, likes and join rows, with these parts:
  - its `unique_together` constraints and `on_delete` rules;
  - the episode count of a series;
  - review listing and review creation;
  - the admin views that relink tags, languages and categories, create a
    season, and record an uploaded episode file.
- **Template helpers.** `relative_url`, `alert_type_class` and `check_null`.
- **User rules.**
  - The role column `user_type` is derived from `is_staff` on every save.
  - The post-login redirect.
  - Deactivation and deletion act on whichever account the submitted e-mail and password authenticate, which need not be the signed-in one.

Modelling choices:

- Records are immutable datatypes. Operations are pure functions from a
  store to a store, together with the response the view would send.
- A query set is a sequence in store order.
- Dates are whole day numbers. "Today" is always a parameter.
- `slugify` and `authenticate` are function-typed parameters.

## Layout

| file | module | models |
|---|---|---|
| wrappers.dfy | Wrappers | `Option` and `Result` |
| seqs.dfy | Seqs | filter, take, subsequence, key uniqueness, stable sort: the list vocabulary the views are written in |
| users.dfy | Users | src/services/users/models.py |
| drama_models.dfy | DramaModels | src/services/drama/models.py |
| api_filters.dfy | ApiFilters | src/api/v1/filters.py |
| api_views.dfy | ApiViews | src/api/v1/views.py |
| drama_views.dfy | DramaViews | src/services/drama/views.py |
| admin_views.dfy | AdminViews | src/web/admins/views.py |
| core_tags.dfy | CoreTags | src/core/templatetags/core_tags.py |
| accounts.dfy | Accounts | src/web/accounts/views.py |

## Model

| member | source | states |
|---|---|---|
| Users.Save | src/services/users/models.py:36-41 | after a save `user_type` is one of the two `USER_TYPE` codes, is `admin` exactly when `is_staff` holds, and no other field changes |
| Users.SaveIgnoresPreviousType | src/services/users/models.py:37-40 | the role a user had before the save has no influence on the result |
| Users.SaveIdempotent | src/services/users/models.py:36-41 | saving twice without touching `is_staff` equals saving once |
| Users.SaveKeepsConsistent | src/services/users/models.py:37-40 | a user whose role already agrees with `is_staff` is left exactly as it was |
| DramaModels.FeaturedNeedsFlagAndEndDay | src/services/drama/models.py:149-153 | without `is_featured`, or with a NULL `featured_until`, a series is never currently featured |
| DramaModels.FeaturedOnEarlierDays | src/services/drama/models.py:152 | featured on a day implies featured on every earlier day; the day after `featured_until` it is no longer featured |
| DramaModels.TrendingIsMonotone | src/services/drama/models.py:155-161 | a view count equal to the threshold is trending, and raising the view count never ends trending |
| DramaModels.UpcomingIsStrict | src/services/drama/models.py:163-168 | a series released today is not upcoming; an upcoming one is released tomorrow or later |
| DramaModels.SaveCategory | src/services/drama/models.py:23-26 | an empty slug becomes `slugify(name)`; a non-empty slug and the other fields are kept |
| DramaModels.SaveTag | src/services/drama/models.py:41-44 | the same slug default for tags |
| DramaModels.SaveCategoryIdempotent | src/services/drama/models.py:23-26 | saving a category twice equals saving it once |
| DramaModels.SaveTagIdempotent | src/services/drama/models.py:41-44 | saving a tag twice equals saving it once |
| DramaModels.ValidHasNoDuplicateKeys | src/services/drama/models.py:254-324 | a store that meets the declared constraints never holds two distinct seasons with the same (series, number), two episodes with the same (season, number), two reviews with the same (user, series) or two likes with the same non-NULL (user, series) |
| DramaModels.TotalEpisodes | src/services/drama/models.py:176-181 | the count is at most the episode table's size, and a non-zero count means some episode's season belongs to the series |
| DramaModels.TotalEpisodesIsSumOverSeasons | src/services/drama/models.py:176-181 | when season ids are unique, counting through the `season__series` join equals summing the episode counts of the series' seasons |
| DramaModels.NoSeasonsNoEpisodes | src/services/drama/models.py:176-181 | a series with no season has no episodes |
| DramaModels.DeleteSeries | src/services/drama/models.py:184-320 | deleting a series removes exactly its seasons, the episodes of those seasons, its reviews, likes and join rows; the other series' join rows stay in order, each as often as before; lookup tables and users are untouched; a valid store stays valid |
| DramaModels.DeleteSeriesLeavesNoEpisodes | src/services/drama/models.py:242-268 | after the cascade the deleted series counts no episodes |
| DramaModels.DeleteDirector | src/services/drama/models.py:121-122 | deleting a director sets the director column of exactly its series to NULL (`SET_NULL`); every other row and field is kept; a valid store stays valid |
| DramaModels.DeleteUser | src/services/drama/models.py:294-320 | deleting a user removes exactly the user's reviews and likes (`CASCADE`) and nothing else in the modelled tables; a valid store stays valid |
| ApiFilters.FilterByPopularity | src/api/v1/filters.py:42-49 | an unset flag returns the input; a set flag keeps exactly the series with `view_count >= 1000`, as an order-preserving subsequence, each kept row as often as in the input |
| ApiFilters.FilterNewRelease | src/api/v1/filters.py:51-59 | an unset flag returns the input; a set flag keeps exactly the series released on or after today minus 30 days, in order, each kept row as often as in the input |
| ApiFilters.FilterByTopSearched | src/api/v1/filters.py:61-68 | an unset flag returns the input; a set flag keeps exactly the series with `search_count >= 500`, in order, each kept row as often as in the input |
| ApiFilters.FilterByTrending | src/api/v1/filters.py:70-77 | an unset flag returns the input; a set flag keeps exactly the series whose `is_trending` property holds, in order, each kept row as often as in the input |
| ApiFilters.FilterByFeatured | src/api/v1/filters.py:79-86 | an unset flag returns the input; a set flag keeps exactly the flagged series with a non-NULL end day on or after today, which are exactly the currently featured ones, in order, each kept row as often as in the input |
| ApiFilters.FiltersAreIdempotent | src/api/v1/filters.py:42-86 | each of the five filters applied twice with the same flag equals the filter applied once |
| ApiFilters.FeaturedFilterMatchesProperty | src/api/v1/filters.py:85 | the featured query filter and the comprehension over `is_currently_featured` pick the same series in the same order |
| ApiFilters.TrendingFilterMatchesProperty | src/api/v1/filters.py:76 | the trending query filter and the comprehension over `is_trending` pick the same series in the same order |
| ApiViews.HomeQueryset | src/api/v1/views.py:27-44 | featured, trending and upcoming each hold min(10, number of series with that property) entries, all drawn from the series and satisfying the property; the newest list has min(10, n) entries sorted by creation time, newest first, and holds no series more often than the store does |
| ApiViews.FeaturedAreFirstMatches | src/api/v1/views.py:34 | a currently featured series preceded by fewer than ten matches is listed right after them; a match is left out only when the list is already full |
| ApiViews.TrendingAreFirstMatches | src/api/v1/views.py:35 | the same first-matches law for the trending list |
| ApiViews.NewestDominatesOmitted | src/api/v1/views.py:37 | no series left out of the newest list was created after one that is in it |
| ApiViews.ReviewList | src/api/v1/views.py:95-100 | no series id gives no reviews; an id gives exactly that series' reviews, in store order |
| ApiViews.CreateReview | src/api/v1/views.py:103-111 | a created review's author is the requesting user, whatever the body said; an unknown series or an existing (user, series) review is refused; success appends one row, changes nothing else and keeps the store valid |
| ApiViews.AppendedReviewIsListed | src/api/v1/views.py:95-111 | a review appended by creation shows up in its series' review list, after the reviews the series already had |
| ApiViews.AppendedReviewLeavesOthers | src/api/v1/views.py:95-111 | appending a review leaves every other series' review list unchanged |
| DramaViews.HomeQueryset | src/services/drama/views.py:23-40 | the second copy keeps every list at most ten long, in store order, with each entry satisfying its property, and the newest list sorted newest first |
| DramaViews.AgreesWithApi | src/services/drama/views.py:23-40 | for the same store and day the drama-service copy builds the same four lists as the API |
| AdminViews.ReplaceLinks | src/web/admins/views.py:523-528 | after the rewrite, the items linked to the series are exactly the selected ones, and the join rows of every other series are unchanged, in order |
| AdminViews.ReplaceLinksOneRowPerItem | src/web/admins/views.py:523-528 | the rewrite leaves the series as many join rows as selections, keeps every other series' rows, and links no item twice when none was selected twice |
| AdminViews.ReplaceLinksIdempotent | src/web/admins/views.py:523-528 | rewriting with the same selection a second time changes nothing |
| AdminViews.LinkItems | src/web/admins/views.py:513-540 | the answer is a 404, the form page or a redirect; an unknown slug gives a 404; a GET on a known slug always renders the form preselected with the current links; a POST redirects exactly when every choice exists, and then the series has exactly one join row per distinct submitted item, other series' rows are unchanged, and nothing else changes; otherwise nothing changes; a valid store stays valid |
| AdminViews.LinkTags | src/web/admins/views.py:513-540 | after a successful post the series has exactly one tag row per distinct submitted tag and no other table changes |
| AdminViews.LinkLanguages | src/web/admins/views.py:543-570 | the same replace-all rule for languages: one language row per distinct submitted language |
| AdminViews.LinkCategories | src/web/admins/views.py:573-601 | the same replace-all rule for categories: one category row per distinct submitted category |
| AdminViews.EmptySelectionUnlinksAll | src/web/admins/views.py:520-528 | posting no choice for an existing series is accepted and leaves it with no links |
| AdminViews.LinkItemsIdempotent | src/web/admins/views.py:517-531 | posting the same selection twice leaves the store as posting it once |
| AdminViews.CreateSeason | src/web/admins/views.py:620-633 | an unknown slug is a 404; a number already used by the series is reported on `season_number` and nothing is saved; otherwise one season is appended for the series of the URL, and (series, number) uniqueness and validity are kept |
| AdminViews.CreateSeasonTwiceIsRefused | src/web/admins/views.py:624-633 | after a season is created, the same form submitted again is refused with a field error and saves nothing |
| AdminViews.SaveFile | src/web/admins/views.py:752-762 | a missing or unknown episode is a 404; otherwise that episode gets the file name and URL and becomes active, and every other field and every other row stays as it was |
| AdminViews.SaveFileIdempotent | src/web/admins/views.py:757-761 | recording the same upload twice leaves the store as recording it once |
| CoreTags.JoinSplit | src/core/templatetags/core_tags.py:10-12 | joining the pieces of a split gives back the original text |
| CoreTags.RelativeUrl | src/core/templatetags/core_tags.py:6-14 | the result starts with `?field=value`; an absent or empty query string gives just that prefix; otherwise a `&` follows, then the segments whose key differs from the field, in their original order and each as often as in the query string; when every segment is dropped the result ends with that `&` |
| CoreTags.AlertTypeClass | src/core/templatetags/core_tags.py:22-36 | the answer is one of six classes, and each class is answered exactly when its list is the first that holds the value |
| CoreTags.SharedValuesArePrimary | src/core/templatetags/core_tags.py:24-28 | the four values listed under both primary and info are classed primary |
| CoreTags.CheckNull | src/core/templatetags/core_tags.py:39-43 | a truthy value is returned unchanged, a falsy one becomes `-`, and the result is always truthy |
| CoreTags.CheckNullIdempotent | src/core/templatetags/core_tags.py:39-43 | applying the filter twice equals applying it once |
| Accounts.CrossAuth | src/web/accounts/views.py:20-31 | anonymous goes to the login page; staff goes to the dashboard even if also a superuser; a superuser who is not staff goes to `/admin/`; everyone else goes to `/` |
| Accounts.CrossAuthReadsOnlyFlags | src/web/accounts/views.py:25-31 | two users with the same staff and superuser flags are routed alike |
| Accounts.CrossAuthDashboardIsAdminRole | src/web/accounts/views.py:25-26 | a saved user reaches the dashboard exactly when its stored role is `admin` |
| Accounts.DeactivateUser | src/web/accounts/views.py:78-81 | the user ends inactive, its role follows `is_staff`, and no other field changes |
| Accounts.DeactivateChangesOnlyActive | src/web/accounts/views.py:78-81 | for a user whose role already agrees with `is_staff`, deactivation changes `is_active` and nothing else |
| Accounts.DeactivateRewritesStaleRole | src/web/accounts/views.py:78-81 | a non-staff user whose stored role reads `admin` is also demoted to `user` by deactivation |
| Accounts.DeactivateIdempotent | src/web/accounts/views.py:78-81 | deactivating twice equals deactivating once |
| Accounts.Perform | src/web/accounts/views.py:78-92 | deactivation replaces only the user's own record; deletion is the user cascade; either keeps a valid store valid |
| Accounts.Post | src/web/accounts/views.py:50-69 | an invalid form or a failed authentication re-renders the form and leaves the store unchanged; only a valid form with a successful authentication redirects to the view's success URL, and then the store is exactly the result of deactivating or deleting the authenticated user |
| Accounts.DeleteUserIdempotent | src/web/accounts/views.py:90-92 | deleting the same user a second time removes nothing more |

## Left out

- Pagination, the django-filter form wiring and the admin list filters have no logic of their own.
- Serializers, URL tables, admin registrations, template views and templates are declarative mappings only.
- The category and tag filters of the filter-set (src/api/v1/filters.py:9-16) are not modelled. They are name lookups across the category and tag join tables without `distinct`, so a series can appear once per matching join row. The five boolean filters keep such repeats: their contracts state each kept row's multiplicity.
- The S3 object deletion in the admin views is a network client.
- The profile-image file removal in `User.delete` is file I/O. Deletion is modelled as the row removal and its cascade.
- The seed script `fake_me_now.py` is random data generation with database I/O.
- The wallet table is not modelled, and neither is the cascade that deletes a user's wallet row with the user (src/services/wallet/models.py:9-13). `DramaModels.DeleteUser` and `Accounts.Perform` therefore say nothing about wallets.
- Time zones and datetime arithmetic are left out. Dates are day numbers, and the new-release cut-off compares release days with today minus 30 days.
- `slugify` and `authenticate` are parameters.
  - `slugify` is an arbitrary function.
  - `authenticate` answers the id of a stored user or nothing.
- Decimal ratings carry no logic. A review's rating is an integer that is stored and never read.
- Ordering ties are modelled as a stable sort in store order.
  - `order_by('-created_at')` leaves the order of equal creation times to the database.
- The `content_rating` `SET_NULL` rule and the cascades from deleting a tag, language, actor or category are not modelled. They follow the same pattern as the director and series rules.
- Episode watch progress and testimonials are not modelled.
- `top_three_series` and the `get_item` template filter are not modelled. Neither belongs to the modelled views.
- `LogoutView`, the GET of the account views and `InActiveView` only render or redirect.
- The `login_required` decorator on `CrossAuthView` is not modelled. It redirects anonymous requests before `get` runs; the model covers `get` itself, including its own anonymous branch.
- A malformed JSON body of the file-save view is not modelled; a missing episode key is modelled.
- AdminViews.SaveFile: the episode id is modelled as an optional integer. The view passes whatever JSON value the body holds to the primary-key lookup. A non-numeric string or a list makes that lookup raise, which is a server error rather than a 404. Values such as `true` or `"5"` are converted to an id. Neither the conversion nor the failing lookup is modelled.
- The imports in src/api/v1/urls.py and src/api/v1/views.py that name code not shown are not modelled.
- Accounts.DeactivateUser: deactivation is described as switching the account off. Because it goes through `User.save`, it also re-derives `user_type` from `is_staff`, so the model states that instead of "only `is_active` changes". `DeactivateChangesOnlyActive` gives the stronger form for users whose role is already consistent.
- AdminViews.LinkItems: the form's rejection of unknown choices is modelled as a single error page. The error text is not modelled.
- AdminViews.LinkItems: new join rows are appended in the order the choices were submitted, without duplicates. The view iterates the form's cleaned query set, whose order the database chooses because the tag, language and category models declare no ordering. No contract here depends on the order of the join rows.
- ApiViews.ReviewList: the route captures the series id as text (src/api/v1/urls.py:16). A non-numeric id such as `abc` is non-empty, so the view filters on it, the integer lookup raises and the request fails with a server error. The model takes the id as an optional integer and does not model that failure.

=== FILE: accounts.dfy ===
/** The account views of src/web/accounts/views.py: the post-login routing
    of `CrossAuthView` and the password-confirmed deactivation and deletion
    of `UserAccountBaseView` and its two subclasses. */
module Accounts {
  import opened Wrappers
  import opened Seqs
  import opened Users
  import opened DramaModels

  // ---------------------------------------------------------------- CrossAuthView

  /** Who sent the request: nobody signed in, or a stored user. */
  datatype Requester = Anonymous | SignedIn(user: User)

  /** The four places `CrossAuthView.get` can send a request. */
  datatype Target =
    | AccountLogin      // 'account_login'
    | AdminsDashboard   // 'admins:dashboard'
    | DjangoAdmin       // '/admin/'
    | Home              // '/'

  /** `CrossAuthView.get`: the branches come in the order anonymous, staff,
      superuser, so a user who is both staff and superuser reaches the
      dashboard, not the Django admin. */
  function CrossAuth(who: Requester): (r: Target)
    ensures r == AccountLogin <==> who.Anonymous?
    ensures r == AdminsDashboard <==> who.SignedIn? && who.user.isStaff
    ensures r == DjangoAdmin <==> who.SignedIn? && !who.user.isStaff && who.user.isSuperuser
    ensures r == Home <==> who.SignedIn? && !who.user.isStaff && !who.user.isSuperuser
  {
    match who
    case Anonymous => AccountLogin
    case SignedIn(u) =>
      if u.isStaff then AdminsDashboard
      else if u.isSuperuser then DjangoAdmin
      else Home
  }

  /** The routing depends on the two role flags alone: activity, e-mail and
      the stored role column play no part. */
  lemma CrossAuthReadsOnlyFlags(u: User, v: User)
    requires u.isStaff == v.isStaff && u.isSuperuser == v.isSuperuser
    ensures CrossAuth(SignedIn(u)) == CrossAuth(SignedIn(v))
  {
  }

  /** A saved user reaches the dashboard exactly when its stored role is `admin`. */
  lemma CrossAuthDashboardIsAdminRole(u: User)
    ensures CrossAuth(SignedIn(Save(u))) == AdminsDashboard <==> Save(u).userType == AdminCode
  {
  }

  // ---------------------------------------------------------------- UserAccountBaseView

  /** The two subclasses of `UserAccountBaseView`. */
  datatype Action = Deactivate | Delete

  /** The URL names the subclasses redirect to once the action is done. */
  function SuccessUrl(a: Action): string {
    match a
    case Deactivate => "accounts:deactivate-account"
    case Delete => "accounts:delete-account"
  }

  /** What a post answers: the form page again, with or without the
      "Enter a valid Email or Password" message, or a redirect. */
  datatype Response = FormAgain(credentialsError: bool) | RedirectTo(urlName: string)

  datatype Outcome = Outcome(response: Response, store: Store)

  /** `DeactivateUserView.perform_action`: clear `is_active`, then save,
      which re-derives the stored role from the staff flag. */
  function DeactivateUser(u: User): (r: User)
    ensures !r.isActive
    ensures r.userType == AdminCode <==> u.isStaff
    ensures r.(isActive := u.isActive, userType := u.userType) == u
  {
    Save(u.(isActive := false))
  }

  /** For a user whose stored role already agrees with the staff flag,
      deactivation changes `is_active` and nothing else. */
  lemma DeactivateChangesOnlyActive(u: User)
    requires RoleConsistent(u)
    ensures DeactivateUser(u) == u.(isActive := false)
  {
  }

  /** A non-staff user whose stored role reads `admin` (a role set without
      going through `save`) is also demoted to `user` by deactivation. */
  lemma DeactivateRewritesStaleRole()
    ensures var u := User(1, "a@b.c", false, false, true, AdminCode);
      DeactivateUser(u) != u.(isActive := false) && DeactivateUser(u).userType == UserCode
  {
    var u := User(1, "a@b.c", false, false, true, AdminCode);
    assert DeactivateUser(u).userType == UserCode;
  }

  /** Deactivating twice leaves the user as deactivating once. */
  lemma DeactivateIdempotent(u: User)
    ensures DeactivateUser(DeactivateUser(u)) == DeactivateUser(u)
  {
  }

  /** The effect of an action on the store, for a stored user. */
  function Perform(st: Store, a: Action, userId: int): (r: Store)
    requires userId in st.users
    ensures a == Deactivate ==>
      && r.users == st.users[userId := DeactivateUser(st.users[userId])]
      && r.(users := st.users) == st
    ensures a == Delete ==> r == DeleteUser(st, userId)
    ensures Valid(st) ==> Valid(r)
  {
    match a
    case Deactivate => st.(users := st.users[userId := DeactivateUser(st.users[userId])])
    case Delete => DeleteUser(st, userId)
  }

  /** `UserAccountBaseView.post`. `formValid` is the verdict of the e-mail
      and password form; `authenticate` stands for Django's credential
      check, which answers the id of a stored user or nothing. The action
      runs only after a valid form and a successful authentication, and
      only then does the view redirect. */
  function Post(st: Store, a: Action, formValid: bool, email: string, password: string,
                authenticate: (string, string) -> Option<int>): (r: Outcome)
    requires formValid && authenticate(email, password).Some? ==> authenticate(email, password).value in st.users
    ensures !formValid ==> r == Outcome(FormAgain(false), st)
    ensures formValid && authenticate(email, password).None? ==> r == Outcome(FormAgain(true), st)
    ensures r.response.RedirectTo? <==> formValid && authenticate(email, password).Some?
    ensures r.response.RedirectTo? ==>
      var id := authenticate(email, password).value;
      && r.response.urlName == SuccessUrl(a)
      && (a == Deactivate ==> id in r.store.users && !r.store.users[id].isActive
                              && r.store.users.Keys == st.users.Keys
                              && (forall k :: k in st.users && k != id ==> r.store.users[k] == st.users[k]))
      && (a == Delete ==> id !in r.store.users && r.store.users == st.users - {id}
                          && (forall v :: v in r.store.reviews ==> v.user != id)
                          && (forall l :: l in r.store.likes ==> l.user != id))
    ensures r.response.RedirectTo? ==> r.store == Perform(st, a, authenticate(email, password).value)
    ensures r.response.FormAgain? ==> r.store == st
    ensures Valid(st) ==> Valid(r.store)
  {
    if !formValid then Outcome(FormAgain(false), st)
    else
      match authenticate(email, password)
      case None => Outcome(FormAgain(true), st)
      case Some(id) => Outcome(RedirectTo(SuccessUrl(a)), Perform(st, a, id))
  }

  /** A second deletion of the same user finds nothing left to remove. */
  lemma {:induction false} DeleteUserIdempotent(st: Store, userId: int)
    ensures DeleteUser(DeleteUser(st, userId), userId) == DeleteUser(st, userId)
  {
    var once := DeleteUser(st, userId);
    var twice := DeleteUser(once, userId);
    KeepAll(once.reviews, (v: Review) => v.user != userId);
    KeepAll(once.likes, (l: Like) => l.user != userId);
    assert twice.users == once.users;
  }
}

=== FILE: admin_views.dfy ===
/** The admin back-office operations with logic of their own
    (src/web/admins/views.py): replacing the tag, language and category
    links of a series, creating a season, and recording an uploaded
    episode file. Each is a before/after function on the store together
    with the response the view sends. */
module AdminViews {
  import opened Wrappers
  import opened Seqs
  import opened DramaModels

  datatype Method = Get | Post

  /** What a view answers. */
  datatype Response =
    | NotFound                                             // `get_object_or_404` found nothing
    | FormPage(initial: set<int>, errorFields: seq<string>) // the form page, (re)rendered
    | Redirect(target: string)
    | JsonSuccess                                          // `{'status': 'success', ...}`

  datatype Outcome = Outcome(response: Response, store: Store)

  const DramaDetail: string := "admins:drama-detail"
  const DramaList: string := "admins:drama-list"

  /** `get_object_or_404(DramaSeries, slug=slug)`; slugs are unique in a valid store. */
  function FindSeriesBySlug(ss: seq<Series>, slug: string): (r: Option<Series>)
    ensures r.Some? ==> r.value in ss && r.value.slug == slug
    ensures r.None? ==> forall s :: s in ss ==> s.slug != slug
  {
    if |ss| == 0 then None
    else if ss[0].slug == slug then Some(ss[0])
    else FindSeriesBySlug(ss[1..], slug)
  }

  /** The keys of `xs`, each once, in order of first appearance. */
  function Dedup(xs: seq<int>): (r: seq<int>)
    ensures forall k :: k in r <==> k in xs
    ensures forall i, j :: 0 <= i < j < |r| ==> r[i] != r[j]
    decreases |xs|
  {
    if |xs| == 0 then []
    else
      var rest := Dedup(xs[..|xs| - 1]);
      var last := xs[|xs| - 1];
      assert xs == xs[..|xs| - 1] + [last];
      if last in rest then rest else rest + [last]
  }

  /** `ModelMultipleChoiceField.clean` of an optional field: the submitted
      keys are accepted only when each names an existing row, and the cleaned
      value holds each chosen row once. */
  function CleanChoices(submitted: seq<int>, known: set<int>): (r: Option<seq<int>>)
    ensures r.None? <==> exists k :: k in submitted && k !in known
    ensures r.Some? ==> forall k :: k in r.value <==> k in submitted
    ensures r.Some? ==> forall i, j :: 0 <= i < j < |r.value| ==> r.value[i] != r.value[j]
  {
    if forall k :: k in submitted ==> k in known then Some(Dedup(submitted)) else None
  }

  /** The items linked to a series by a join table. */
  function LinkedItems(links: seq<Link>, seriesId: int): set<int> {
    set l | l in links && l.series == seriesId :: l.item
  }

  /** A join row that belongs to the given series. */
  function SameSeries(seriesId: int): Link -> bool {
    (l: Link) => l.series == seriesId
  }

  /** The item a join row points at. */
  function LinkItemOf(l: Link): int { l.item }

  /** No item is selected twice. */
  predicate NoRepeats(xs: seq<int>) {
    forall i, j :: 0 <= i < j < |xs| ==> xs[i] != xs[j]
  }

  /** A selection without repeats names as many items as it has entries. */
  lemma {:induction false} NoRepeatsCount(xs: seq<int>)
    requires NoRepeats(xs)
    ensures |set k | k in xs| == |xs|
    decreases |xs|
  {
    if |xs| != 0 {
      var rest := xs[1..];
      NoRepeatsCount(rest);
      assert (set k | k in xs) == {xs[0]} + set k | k in rest;
      assert xs[0] !in rest;
    }
  }

  /** One new join row per selected item. */
  function NewLinks(seriesId: int, selected: seq<int>): (r: seq<Link>)
    ensures |r| == |selected|
    ensures forall i :: 0 <= i < |r| ==> r[i] == Link(seriesId, selected[i])
    ensures forall l :: l in r <==> l.series == seriesId && l.item in selected
  {
    var r := seq(|selected|, k requires 0 <= k < |selected| => Link(seriesId, selected[k]));
    assert forall k :: k in selected ==> Link(seriesId, k) in r by {
      forall k | k in selected ensures Link(seriesId, k) in r {
        var i :| 0 <= i < |selected| && selected[i] == k;
        assert r[i] == Link(seriesId, k);
      }
    }
    r
  }

  /** Delete every join row of the series, then create one row per selected item. */
  function ReplaceLinks(links: seq<Link>, seriesId: int, selected: seq<int>): (r: seq<Link>)
    ensures LinkedItems(r, seriesId) == set k | k in selected
    ensures Keep(r, OtherSeries(seriesId)) == Keep(links, OtherSeries(seriesId))
    ensures forall l :: l in r <==> (l in links && l.series != seriesId) || (l.series == seriesId && l.item in selected)
  {
    var other := OtherSeries(seriesId);
    var kept := Keep(links, other);
    var created := NewLinks(seriesId, selected);
    assert forall l :: other(l) <==> l.series != seriesId;
    KeepNone(created, other);
    KeepAppend(kept, created, other);
    KeepIdempotent(links, other);
    var r := kept + created;
    assert forall k :: k in selected ==> Link(seriesId, k) in r;
    assert forall k :: k in LinkedItems(r, seriesId) <==> k in selected;
    r
  }

  /** The series ends with exactly one join row per selected item: as many
      rows as selections, every other series' rows kept, and no item linked
      twice when none was selected twice. */
  lemma ReplaceLinksOneRowPerItem(links: seq<Link>, seriesId: int, selected: seq<int>)
    ensures var r := ReplaceLinks(links, seriesId, selected);
      && |Keep(r, SameSeries(seriesId))| == |selected|
      && |r| == |Keep(links, OtherSeries(seriesId))| + |selected|
      && (NoRepeats(selected) ==> DistinctWhere(r, LinkItemOf, SameSeries(seriesId)))
  {
    var same := SameSeries(seriesId);
    var kept := Keep(links, OtherSeries(seriesId));
    var created := NewLinks(seriesId, selected);
    assert ReplaceLinks(links, seriesId, selected) == kept + created;
    assert forall l :: same(l) <==> l.series == seriesId;
    KeepNone(kept, same);
    KeepAll(created, same);
    KeepAppend(kept, created, same);
    OneRowPerItem(kept, created, seriesId, selected);
  }

  /** Rows of other series followed by the new rows hold at most one row per
      item for the series when no item was selected twice. */
  lemma OneRowPerItem(kept: seq<Link>, created: seq<Link>, seriesId: int, selected: seq<int>)
    requires forall l :: l in kept ==> l.series != seriesId
    requires |created| == |selected|
    requires forall i :: 0 <= i < |created| ==> created[i] == Link(seriesId, selected[i])
    ensures NoRepeats(selected) ==> DistinctWhere(kept + created, LinkItemOf, SameSeries(seriesId))
  {
    var r := kept + created;
    if NoRepeats(selected) {
      forall i, j | 0 <= i < j < |r| && SameSeries(seriesId)(r[i]) && SameSeries(seriesId)(r[j])
        ensures LinkItemOf(r[i]) != LinkItemOf(r[j])
      {
        assert r[i] == created[i - |kept|] && r[j] == created[j - |kept|];
      }
    }
  }

  /** Submitting the same selection again changes nothing. */
  lemma ReplaceLinksIdempotent(links: seq<Link>, seriesId: int, selected: seq<int>)
    ensures ReplaceLinks(ReplaceLinks(links, seriesId, selected), seriesId, selected)
      == ReplaceLinks(links, seriesId, selected)
  {
    var once := ReplaceLinks(links, seriesId, selected);
    var created := NewLinks(seriesId, selected);
    assert once == Keep(links, OtherSeries(seriesId)) + created;
    assert ReplaceLinks(once, seriesId, selected) == Keep(once, OtherSeries(seriesId)) + created;
  }

  /** The three join tables the admin can rewrite. */
  datatype LinkKind = TagLinks | LanguageLinks | CategoryLinks

  function LinkTable(st: Store, kind: LinkKind): seq<Link> {
    match kind
    case TagLinks => st.tagLinks
    case LanguageLinks => st.languageLinks
    case CategoryLinks => st.categoryLinks
  }

  /** The lookup table whose rows the join table points at. */
  function LinkTargets(st: Store, kind: LinkKind): set<int> {
    match kind
    case TagLinks => st.tags
    case LanguageLinks => st.languages
    case CategoryLinks => st.categories
  }

  function WithLinkTable(st: Store, kind: LinkKind, links: seq<Link>): (r: Store)
    ensures LinkTable(r, kind) == links
  {
    match kind
    case TagLinks => st.(tagLinks := links)
    case LanguageLinks => st.(languageLinks := links)
    case CategoryLinks => st.(categoryLinks := links)
  }

  /** The shared body of the three link views. An unknown slug is a 404. A
      GET shows the form preselected with the current links. A POST whose
      choices all exist replaces every link of the series by one link per
      chosen item and redirects to the series page; other choices re-render
      the form and change nothing. */
  function LinkItems(st: Store, kind: LinkKind, slug: string, verb: Method, submitted: seq<int>): (r: Outcome)
    ensures r.response.NotFound? <==> forall s :: s in st.series ==> s.slug != slug
    ensures !r.response.Redirect? ==> r.store == st
    ensures r.response.NotFound? || r.response.FormPage? || r.response.Redirect?
    ensures verb == Get && !r.response.NotFound? ==>
      && r.response.FormPage?
      && r.response.initial == LinkedItems(LinkTable(st, kind), FindSeriesBySlug(st.series, slug).value.id)
    ensures r.response.Redirect? <==>
      !r.response.NotFound? && verb == Post && forall k :: k in submitted ==> k in LinkTargets(st, kind)
    ensures r.response.Redirect? ==>
      var id := FindSeriesBySlug(st.series, slug).value.id;
      && r.response.target == DramaDetail
      && LinkedItems(LinkTable(r.store, kind), id) == set k | k in submitted
      && |Keep(LinkTable(r.store, kind), SameSeries(id))| == |set k | k in submitted|
      && DistinctWhere(LinkTable(r.store, kind), LinkItemOf, SameSeries(id))
      && Keep(LinkTable(r.store, kind), OtherSeries(id)) == Keep(LinkTable(st, kind), OtherSeries(id))
      && WithLinkTable(r.store, kind, LinkTable(st, kind)) == st
    ensures Valid(st) ==> Valid(r.store)
  {
    match FindSeriesBySlug(st.series, slug)
    case None => Outcome(NotFound, st)
    case Some(series) =>
      match verb
      case Get => Outcome(FormPage(LinkedItems(LinkTable(st, kind), series.id), []), st)
      case Post => LinkPost(st, kind, series, submitted)
  }

  /** The POST branch of the link views, once the series is found. */
  function LinkPost(st: Store, kind: LinkKind, series: Series, submitted: seq<int>): (r: Outcome)
    requires series in st.series
    ensures r.response.Redirect? <==> forall k :: k in submitted ==> k in LinkTargets(st, kind)
    ensures r.response.Redirect? || r.response.FormPage?
    ensures !r.response.Redirect? ==> r.store == st
    ensures r.response.Redirect? ==>
      && r.response.target == DramaDetail
      && LinkedItems(LinkTable(r.store, kind), series.id) == set k | k in submitted
      && |Keep(LinkTable(r.store, kind), SameSeries(series.id))| == |set k | k in submitted|
      && DistinctWhere(LinkTable(r.store, kind), LinkItemOf, SameSeries(series.id))
      && Keep(LinkTable(r.store, kind), OtherSeries(series.id)) == Keep(LinkTable(st, kind), OtherSeries(series.id))
      && WithLinkTable(r.store, kind, LinkTable(st, kind)) == st
    ensures Valid(st) ==> Valid(r.store)
  {
    match CleanChoices(submitted, LinkTargets(st, kind))
    case None => Outcome(FormPage({}, ["invalid choice"]), st)
    case Some(selected) =>
      assert series.id in SeriesIds(st.series);
      assert (set k | k in selected) == set k | k in submitted;
      NoRepeatsCount(selected);
      RelinkOneRowPerItem(st, kind, series.id, selected);
      Outcome(Redirect(DramaDetail), Relink(st, kind, series.id, selected))
  }

  /** The store after the join table of `kind` was rewritten for one series. */
  function Relink(st: Store, kind: LinkKind, seriesId: int, selected: seq<int>): (r: Store)
    requires seriesId in SeriesIds(st.series)
    requires forall k :: k in selected ==> k in LinkTargets(st, kind)
    ensures LinkedItems(LinkTable(r, kind), seriesId) == set k | k in selected
    ensures Keep(LinkTable(r, kind), OtherSeries(seriesId)) == Keep(LinkTable(st, kind), OtherSeries(seriesId))
    ensures WithLinkTable(r, kind, LinkTable(st, kind)) == st
    ensures Valid(st) ==> Valid(r)
  {
    ReplaceLinksKeepsValid(st, kind, seriesId, selected);
    WithLinkTable(st, kind, ReplaceLinks(LinkTable(st, kind), seriesId, selected))
  }

  /** After `Relink` the series has one join row per selected item. */
  lemma RelinkOneRowPerItem(st: Store, kind: LinkKind, seriesId: int, selected: seq<int>)
    requires seriesId in SeriesIds(st.series)
    requires forall k :: k in selected ==> k in LinkTargets(st, kind)
    ensures var links := LinkTable(Relink(st, kind, seriesId, selected), kind);
      && |Keep(links, SameSeries(seriesId))| == |selected|
      && (NoRepeats(selected) ==> DistinctWhere(links, LinkItemOf, SameSeries(seriesId)))
  {
    ReplaceLinksOneRowPerItem(LinkTable(st, kind), seriesId, selected);
  }

  /** Rewriting one join table with existing items of an existing series keeps the store valid. */
  lemma ReplaceLinksKeepsValid(st: Store, kind: LinkKind, seriesId: int, selected: seq<int>)
    requires seriesId in SeriesIds(st.series)
    requires forall k :: k in selected ==> k in LinkTargets(st, kind)
    ensures Valid(st) ==> Valid(WithLinkTable(st, kind, ReplaceLinks(LinkTable(st, kind), seriesId, selected)))
  {
    var r := WithLinkTable(st, kind, ReplaceLinks(LinkTable(st, kind), seriesId, selected));
    assert r.series == st.series && LinkTargets(r, kind) == LinkTargets(st, kind);
  }

  /** `link_tags_dramaseries`: after a successful post the series' tags are
      exactly the submitted ones and no other table changed. */
  function LinkTags(st: Store, slug: string, verb: Method, submitted: seq<int>): (r: Outcome)
    ensures !r.response.Redirect? ==> r.store == st
    ensures r.response.Redirect? ==>
      && FindSeriesBySlug(st.series, slug).Some?
      && LinkedItems(r.store.tagLinks, FindSeriesBySlug(st.series, slug).value.id) == set k | k in submitted
      && |Keep(r.store.tagLinks, SameSeries(FindSeriesBySlug(st.series, slug).value.id))| == |set k | k in submitted|
      && DistinctWhere(r.store.tagLinks, LinkItemOf, SameSeries(FindSeriesBySlug(st.series, slug).value.id))
      && r.store.(tagLinks := st.tagLinks) == st
  {
    LinkItems(st, TagLinks, slug, verb, submitted)
  }

  /** `link_languages_dramaseries`: the same replace-all rule on the language links. */
  function LinkLanguages(st: Store, slug: string, verb: Method, submitted: seq<int>): (r: Outcome)
    ensures !r.response.Redirect? ==> r.store == st
    ensures r.response.Redirect? ==>
      && FindSeriesBySlug(st.series, slug).Some?
      && LinkedItems(r.store.languageLinks, FindSeriesBySlug(st.series, slug).value.id) == set k | k in submitted
      && |Keep(r.store.languageLinks, SameSeries(FindSeriesBySlug(st.series, slug).value.id))| == |set k | k in submitted|
      && DistinctWhere(r.store.languageLinks, LinkItemOf, SameSeries(FindSeriesBySlug(st.series, slug).value.id))
      && r.store.(languageLinks := st.languageLinks) == st
  {
    LinkItems(st, LanguageLinks, slug, verb, submitted)
  }

  /** `link_categories_dramaseries`: the same replace-all rule on the category links. */
  function LinkCategories(st: Store, slug: string, verb: Method, submitted: seq<int>): (r: Outcome)
    ensures !r.response.Redirect? ==> r.store == st
    ensures r.response.Redirect? ==>
      && FindSeriesBySlug(st.series, slug).Some?
      && LinkedItems(r.store.categoryLinks, FindSeriesBySlug(st.series, slug).value.id) == set k | k in submitted
      && |Keep(r.store.categoryLinks, SameSeries(FindSeriesBySlug(st.series, slug).value.id))| == |set k | k in submitted|
      && DistinctWhere(r.store.categoryLinks, LinkItemOf, SameSeries(FindSeriesBySlug(st.series, slug).value.id))
      && r.store.(categoryLinks := st.categoryLinks) == st
  {
    LinkItems(st, CategoryLinks, slug, verb, submitted)
  }

  /** The field is optional, so posting no choice at all for an existing
      series is accepted and unlinks everything from it. */
  lemma EmptySelectionUnlinksAll(st: Store, kind: LinkKind, slug: string)
    requires exists s :: s in st.series && s.slug == slug
    ensures var r := LinkItems(st, kind, slug, Post, []);
      && r.response.Redirect?
      && LinkedItems(LinkTable(r.store, kind), FindSeriesBySlug(st.series, slug).value.id) == {}
  {
    var r := LinkItems(st, kind, slug, Post, []);
    assert (set k: int | k in [] :: k) == {};
  }

  /** Posting the same selection twice leaves the store as posting it once. */
  lemma LinkItemsIdempotent(st: Store, kind: LinkKind, slug: string, submitted: seq<int>)
    ensures var once := LinkItems(st, kind, slug, Post, submitted).store;
      LinkItems(once, kind, slug, Post, submitted).store == once
  {
    var once := LinkItems(st, kind, slug, Post, submitted);
    match FindSeriesBySlug(st.series, slug)
    case None =>
    case Some(series) =>
      match CleanChoices(submitted, LinkTargets(st, kind))
      case None =>
      case Some(selected) =>
        assert once.store.series == st.series;
        ReplaceLinksIdempotent(LinkTable(st, kind), series.id, selected);
  }

  /** The cleaned fields of the season form; the series comes from the URL. */
  datatype SeasonForm = SeasonForm(seasonNumber: int, releaseDate: int, description: Option<string>)

  /** `SeasonCreateView.form_valid`: a season number already used by the
      series is reported on the `season_number` field and nothing is saved;
      otherwise the season is attached to the series named in the URL and
      saved under the next free key. */
  function CreateSeason(st: Store, slug: string, form: SeasonForm): (r: Outcome)
    ensures r.response.NotFound? <==> forall s :: s in st.series ==> s.slug != slug
    ensures r.response.FormPage? <==>
      && FindSeriesBySlug(st.series, slug).Some?
      && exists x :: x in st.seasons && x.series == FindSeriesBySlug(st.series, slug).value.id
          && x.seasonNumber == form.seasonNumber
    ensures r.response.FormPage? ==> r.response.errorFields == ["season_number"]
    ensures r.response.NotFound? || r.response.FormPage? || r.response.Redirect?
    ensures !r.response.Redirect? ==> r.store == st
    ensures r.response.Redirect? ==>
      && r.response.target == DramaList
      && |r.store.seasons| == |st.seasons| + 1
      && r.store.seasons[..|st.seasons|] == st.seasons
      && var created := r.store.seasons[|st.seasons|];
      && created.series == FindSeriesBySlug(st.series, slug).value.id
      && created.seasonNumber == form.seasonNumber
      && created.releaseDate == form.releaseDate
      && created.description == form.description
      && r.store.(seasons := st.seasons) == st
    ensures Valid(st) ==> Valid(r.store)
  {
    match FindSeriesBySlug(st.series, slug)
    case None => Outcome(NotFound, st)
    case Some(series) =>
      if exists x :: x in st.seasons && x.series == series.id && x.seasonNumber == form.seasonNumber then
        Outcome(FormPage({}, ["season_number"]), st)
      else
        Outcome(Redirect(DramaList), AddSeason(st, series.id, form))
  }

  /** The store with a new season of the series saved under the next free key. */
  function AddSeason(st: Store, seriesId: int, form: SeasonForm): (r: Store)
    requires seriesId in SeriesIds(st.series)
    requires forall x :: x in st.seasons && x.series == seriesId ==> x.seasonNumber != form.seasonNumber
    ensures |r.seasons| == |st.seasons| + 1 && r.seasons[..|st.seasons|] == st.seasons
    ensures var created := r.seasons[|st.seasons|];
      && created.series == seriesId && created.seasonNumber == form.seasonNumber
      && created.releaseDate == form.releaseDate && created.description == form.description
    ensures r.(seasons := st.seasons) == st
    ensures Valid(st) ==> Valid(r)
  {
    var season := Season(FreshId(st.seasons, SeasonIdOf), seriesId, form.seasonNumber, form.releaseDate, form.description);
    AppendDistinctWhere(st.seasons, season, SeasonIdOf, Always);
    AppendDistinctWhere(st.seasons, season, SeasonKey, Always);
    var r := st.(seasons := st.seasons + [season]);
    assert SeasonIds(st.seasons) <= SeasonIds(r.seasons);
    assert r.seasons[..|st.seasons|] == st.seasons;
    r
  }

  /** The episode `e` after an upload was recorded for it. */
  function WithVideo(e: Episode, fileUrl: Option<string>, fileName: Option<string>): Episode {
    e.(videoFileName := fileName, videoFile := fileUrl, isActive := true)
  }

  function EpisodeIds(episodes: seq<Episode>): set<int> {
    set e | e in episodes :: e.id
  }

  /** The episode table with the upload recorded on every row with key `id`. */
  function RecordUpload(eps: seq<Episode>, id: int, fileUrl: Option<string>, fileName: Option<string>): (r: seq<Episode>)
    ensures |r| == |eps|
    ensures forall i :: 0 <= i < |eps| ==> r[i] == if eps[i].id == id then WithVideo(eps[i], fileUrl, fileName) else eps[i]
  {
    seq(|eps|, i requires 0 <= i < |eps| => if eps[i].id == id then WithVideo(eps[i], fileUrl, fileName) else eps[i])
  }

  /** Rewriting episodes row by row without touching their key, their
      `(season, number)` pair or their season keeps a valid store valid. */
  lemma SameKeysKeepValid(st: Store, updated: seq<Episode>)
    requires |updated| == |st.episodes|
    requires forall i :: 0 <= i < |updated| ==>
      updated[i].id == st.episodes[i].id && updated[i].season == st.episodes[i].season
      && updated[i].episodeNumber == st.episodes[i].episodeNumber
    ensures Valid(st) ==> Valid(st.(episodes := updated))
  {
    if Valid(st) {
      var r := st.(episodes := updated);
      assert DistinctKeys(updated, EpisodeIdOf) by {
        forall i, j | 0 <= i < j < |updated| ensures EpisodeIdOf(updated[i]) != EpisodeIdOf(updated[j]) {
          assert EpisodeIdOf(st.episodes[i]) != EpisodeIdOf(st.episodes[j]);
        }
      }
      assert DistinctKeys(updated, EpisodeKey) by {
        forall i, j | 0 <= i < j < |updated| ensures EpisodeKey(updated[i]) != EpisodeKey(updated[j]) {
          assert EpisodeKey(st.episodes[i]) != EpisodeKey(st.episodes[j]);
        }
      }
      assert Unique(r);
      forall e | e in updated ensures e.season in SeasonIds(st.seasons) {
        var i :| 0 <= i < |updated| && updated[i] == e;
        assert st.episodes[i] in st.episodes;
      }
      assert References(r);
    }
  }

  /** `SaveFileAPIView.post`: the episode named in the JSON body gets the
      uploaded file's name and URL and becomes active; every other field and
      every other episode stay as they were. A missing or unknown episode
      key is a 404. */
  function SaveFile(st: Store, episodeId: Option<int>, fileUrl: Option<string>, fileName: Option<string>): (r: Outcome)
    ensures r.response.NotFound? <==> episodeId.None? || episodeId.value !in EpisodeIds(st.episodes)
    ensures r.response.NotFound? || r.response.JsonSuccess?
    ensures r.response.NotFound? ==> r.store == st
    ensures r.response.JsonSuccess? ==>
      && |r.store.episodes| == |st.episodes|
      && r.store.(episodes := st.episodes) == st
      && forall i :: 0 <= i < |st.episodes| ==>
        var before, after := st.episodes[i], r.store.episodes[i];
        if before.id == episodeId.value then
          && after.videoFileName == fileName && after.videoFile == fileUrl && after.isActive
          && after.(videoFileName := before.videoFileName, videoFile := before.videoFile, isActive := before.isActive) == before
        else after == before
    ensures Valid(st) ==> Valid(r.store)
  {
    if episodeId.None? || episodeId.value !in EpisodeIds(st.episodes) then Outcome(NotFound, st)
    else
      var updated := RecordUpload(st.episodes, episodeId.value, fileUrl, fileName);
      SameKeysKeepValid(st, updated);
      Outcome(JsonSuccess, st.(episodes := updated))
  }

  /** Submitting the same season form twice saves one season: the second
      request finds the number taken and is sent back with a field error. */
  lemma CreateSeasonTwiceIsRefused(st: Store, slug: string, form: SeasonForm)
    ensures var once := CreateSeason(st, slug, form);
      once.response.Redirect? ==>
        var twice := CreateSeason(once.store, slug, form);
        twice.response.FormPage? && twice.store == once.store
  {
    var once := CreateSeason(st, slug, form);
    if once.response.Redirect? {
      var created := once.store.seasons[|st.seasons|];
      assert created in once.store.seasons;
      assert once.store.series == st.series;
    }
  }

  /** Recording the same upload twice leaves the store as recording it once. */
  lemma SaveFileIdempotent(st: Store, episodeId: Option<int>, fileUrl: Option<string>, fileName: Option<string>)
    ensures var once := SaveFile(st, episodeId, fileUrl, fileName).store;
      SaveFile(once, episodeId, fileUrl, fileName).store == once
  {
    var once := SaveFile(st, episodeId, fileUrl, fileName);
    if once.response.JsonSuccess? {
      assert EpisodeIds(once.store.episodes) == EpisodeIds(st.episodes) by {
        forall id | id in EpisodeIds(st.episodes) ensures id in EpisodeIds(once.store.episodes) {
          var e :| e in st.episodes && e.id == id;
          var i :| 0 <= i < |st.episodes| && st.episodes[i] == e;
          assert once.store.episodes[i] in once.store.episodes;
        }
      }
      var twice := SaveFile(once.store, episodeId, fileUrl, fileName);
      assert twice.store.episodes == once.store.episodes;
    }
  }
}

=== FILE: api_filters.dfy ===
/** The boolean filters of the API's drama-series filter-set
    (src/api/v1/filters.py). Each filter keeps the series matching one
    query condition when its flag is set and returns the query set
    untouched otherwise. A query set is a sequence in store order. */
module ApiFilters {
  import opened Seqs
  import opened DramaModels

  /** `filter_by_popularity` threshold on `view_count`. */
  const PopularViews: nat := 1000
  /** `filter_by_top_searched` threshold on `search_count`. */
  const TopSearches: nat := 500
  /** `filter_new_release` window, in days before now. */
  const NewReleaseDays: nat := 30

  predicate IsPopular(s: Series) {
    s.viewCount >= PopularViews
  }

  predicate IsTopSearched(s: Series) {
    s.searchCount >= TopSearches
  }

  /** `view_count__gte=F('trending_threshold')`, as a query condition. */
  predicate TrendingQuery(s: Series) {
    s.viewCount >= s.trendingThreshold
  }

  /** `release_date__gte=now - 30 days`; the date column is compared at day granularity. */
  function ReleasedSince(today: int): Series -> bool {
    (s: Series) => s.releaseDate >= today - NewReleaseDays
  }

  /** `is_featured=True, featured_until__gte=today`; a NULL end day never satisfies `gte`. */
  function FeaturedQuery(today: int): Series -> bool {
    (s: Series) => s.isFeatured == true && s.featuredUntil.Some? && s.featuredUntil.value >= today
  }

  /** The shape shared by all five filters: apply `p` when `value` is set. */
  function FilterWhen(qs: seq<Series>, value: bool, p: Series -> bool): (r: seq<Series>)
    ensures !value ==> r == qs
    ensures value ==> forall s :: s in r <==> s in qs && p(s)
    ensures value ==> forall s :: multiset(r)[s] == if p(s) then multiset(qs)[s] else 0
    ensures IsSubseq(r, qs)
  {
    if value then
      KeepIsSubseq(qs, p);
      forall s ensures multiset(Keep(qs, p))[s] == if p(s) then multiset(qs)[s] else 0 {
        KeepCount(qs, p, s);
      }
      Keep(qs, p)
    else
      SubseqRefl(qs);
      qs
  }

  /** `filter_by_popularity`. */
  function FilterByPopularity(qs: seq<Series>, value: bool): (r: seq<Series>)
    ensures !value ==> r == qs
    ensures value ==> forall s :: s in r <==> s in qs && s.viewCount >= 1000
    ensures value ==> forall s :: multiset(r)[s] == if s.viewCount >= 1000 then multiset(qs)[s] else 0
    ensures IsSubseq(r, qs)
  {
    FilterWhen(qs, value, IsPopular)
  }

  /** `filter_new_release`. */
  function FilterNewRelease(qs: seq<Series>, value: bool, today: int): (r: seq<Series>)
    ensures !value ==> r == qs
    ensures value ==> forall s :: s in r <==> s in qs && s.releaseDate >= today - 30
    ensures value ==> forall s :: multiset(r)[s] == if s.releaseDate >= today - 30 then multiset(qs)[s] else 0
    ensures IsSubseq(r, qs)
  {
    FilterWhen(qs, value, ReleasedSince(today))
  }

  /** `filter_by_top_searched`. */
  function FilterByTopSearched(qs: seq<Series>, value: bool): (r: seq<Series>)
    ensures !value ==> r == qs
    ensures value ==> forall s :: s in r <==> s in qs && s.searchCount >= 500
    ensures value ==> forall s :: multiset(r)[s] == if s.searchCount >= 500 then multiset(qs)[s] else 0
    ensures IsSubseq(r, qs)
  {
    FilterWhen(qs, value, IsTopSearched)
  }

  /** `filter_by_trending`: the query condition selects exactly the series
      whose `is_trending` property holds. */
  function FilterByTrending(qs: seq<Series>, value: bool): (r: seq<Series>)
    ensures !value ==> r == qs
    ensures value ==> forall s :: s in r <==> s in qs && IsTrending(s)
    ensures value ==> forall s :: multiset(r)[s] == if IsTrending(s) then multiset(qs)[s] else 0
    ensures IsSubseq(r, qs)
  {
    FilterWhen(qs, value, TrendingQuery)
  }

  /** `filter_by_featured`: the query condition selects exactly the series
      whose `is_currently_featured` property holds today. */
  function FilterByFeatured(qs: seq<Series>, value: bool, today: int): (r: seq<Series>)
    ensures !value ==> r == qs
    ensures value ==> forall s :: s in r <==> s in qs && IsCurrentlyFeatured(s, today)
    ensures value ==> forall s :: s in r <==> s in qs && s.isFeatured && s.featuredUntil.Some? && s.featuredUntil.value >= today
    ensures value ==> forall s :: multiset(r)[s] == if IsCurrentlyFeatured(s, today) then multiset(qs)[s] else 0
    ensures IsSubseq(r, qs)
  {
    FilterWhen(qs, value, FeaturedQuery(today))
  }

  /** Every filter applied twice with the same flag equals the filter applied once. */
  lemma FiltersAreIdempotent(qs: seq<Series>, value: bool, today: int)
    ensures FilterByPopularity(FilterByPopularity(qs, value), value) == FilterByPopularity(qs, value)
    ensures FilterNewRelease(FilterNewRelease(qs, value, today), value, today) == FilterNewRelease(qs, value, today)
    ensures FilterByTopSearched(FilterByTopSearched(qs, value), value) == FilterByTopSearched(qs, value)
    ensures FilterByTrending(FilterByTrending(qs, value), value) == FilterByTrending(qs, value)
    ensures FilterByFeatured(FilterByFeatured(qs, value, today), value, today) == FilterByFeatured(qs, value, today)
  {
    if value {
      KeepIdempotent(qs, IsPopular);
      KeepIdempotent(qs, ReleasedSince(today));
      KeepIdempotent(qs, IsTopSearched);
      KeepIdempotent(qs, TrendingQuery);
      KeepIdempotent(qs, FeaturedQuery(today));
    }
  }

  /** The featured filter agrees, element for element and in order, with the
      list comprehension over `is_currently_featured` that the home page uses. */
  lemma FeaturedFilterMatchesProperty(qs: seq<Series>, today: int)
    ensures FilterByFeatured(qs, true, today) == Keep(qs, FeaturedOn(today))
  {
    KeepAgrees(qs, FeaturedQuery(today), FeaturedOn(today));
  }

  /** Likewise for the trending filter and `is_trending`. */
  lemma TrendingFilterMatchesProperty(qs: seq<Series>)
    ensures FilterByTrending(qs, true) == Keep(qs, IsTrending)
  {
    KeepAgrees(qs, TrendingQuery, IsTrending);
  }
}

=== FILE: api_views.dfy ===
/** The API views with logic of their own (src/api/v1/views.py): the home
    page aggregation, the per-series review list and review creation. */
module ApiViews {
  import opened Wrappers
  import opened Seqs
  import opened DramaModels

  /** Every home list is cut at this many entries (`[:10]`). */
  const HomeListSize: nat := 10

  /** The four lists of the home page. */
  datatype HomeLists = HomeLists(
    featured: seq<Series>,
    trending: seq<Series>,
    upcoming: seq<Series>,
    newest: seq<Series>)

  function CreatedAtOf(s: Series): int {
    s.createdAt
  }

  /** The first ten series of `all` that satisfy `p`, in store order. */
  function FirstMatches(all: seq<Series>, p: Series -> bool): (r: seq<Series>)
    ensures |r| == Min(HomeListSize, |Keep(all, p)|)
    ensures forall s :: s in r ==> s in all && p(s)
    ensures IsSubseq(r, all)
  {
    var matches := Keep(all, p);
    TakeIsSubseq(matches, HomeListSize);
    KeepIsSubseq(all, p);
    SubseqTrans(Take(matches, HomeListSize), matches, all);
    Take(matches, HomeListSize)
  }

  /** The ten most recently created series, newest first. */
  function Newest(all: seq<Series>): (r: seq<Series>)
    ensures |r| == Min(HomeListSize, |all|)
    ensures multiset(r) <= multiset(all)
    ensures forall s :: s in r ==> s in all
    ensures SortedDesc(r, CreatedAtOf)
  {
    var sorted := SortDesc(all, CreatedAtOf);
    TakeSubMultiset(sorted, HomeListSize);
    var r := Take(sorted, HomeListSize);
    assert forall s :: s in r ==> s in all by {
      forall s | s in r ensures s in all {
        assert s in multiset(r);
      }
    }
    r
  }

  /** `HomeDramaListAPIView.get_queryset`: `all` is the series table in store
      order. Featured and trending come from list comprehensions over the
      properties, upcoming from a query filter, newest from ordering by
      creation time, newest first; each list is cut at ten. */
  function HomeQueryset(all: seq<Series>, today: int): (r: HomeLists)
    ensures |r.featured| <= HomeListSize && |r.trending| <= HomeListSize
    ensures |r.upcoming| <= HomeListSize && |r.newest| <= HomeListSize
    ensures |r.featured| == Min(HomeListSize, |Keep(all, FeaturedOn(today))|)
    ensures |r.trending| == Min(HomeListSize, |Keep(all, IsTrending)|)
    ensures |r.upcoming| == Min(HomeListSize, |Keep(all, UpcomingOn(today))|)
    ensures IsSubseq(r.featured, all) && IsSubseq(r.trending, all) && IsSubseq(r.upcoming, all)
    ensures multiset(r.newest) <= multiset(all)
    ensures forall s :: s in r.featured ==> s in all && IsCurrentlyFeatured(s, today)
    ensures forall s :: s in r.trending ==> s in all && IsTrending(s)
    ensures forall s :: s in r.upcoming ==> s in all && s.releaseDate > today
    ensures forall s :: s in r.newest ==> s in all
    ensures |r.newest| == Min(HomeListSize, |all|)
    ensures SortedDesc(r.newest, CreatedAtOf)
  {
    var featured := FirstMatches(all, FeaturedOn(today));
    var upcoming := FirstMatches(all, UpcomingOn(today));
    assert forall s :: s in featured ==> IsCurrentlyFeatured(s, today) by {
      forall s | s in featured ensures IsCurrentlyFeatured(s, today) {
        assert FeaturedOn(today)(s);
      }
    }
    assert forall s :: s in upcoming ==> IsUpcoming(s, today) by {
      forall s | s in upcoming ensures IsUpcoming(s, today) {
        assert UpcomingOn(today)(s);
      }
    }
    HomeLists(featured, FirstMatches(all, IsTrending), upcoming, Newest(all))
  }

  /** The featured list holds the first matches in store order: a currently
      featured series at index `i` is listed exactly when fewer than ten
      matches precede it, right after them; a match is left out only when the
      list is full. */
  lemma FeaturedAreFirstMatches(all: seq<Series>, today: int, i: int)
    requires 0 <= i < |all| && IsCurrentlyFeatured(all[i], today)
    ensures var before := |Keep(all[..i], FeaturedOn(today))|;
      var featured := HomeQueryset(all, today).featured;
      && (before < HomeListSize ==> before < |featured| && featured[before] == all[i])
      && (all[i] !in featured ==> |featured| == HomeListSize)
  {
    TakeKeepPosition(all, FeaturedOn(today), HomeListSize, i);
    if all[i] !in HomeQueryset(all, today).featured {
      TakeKeepSkipsOnlyWhenFull(all, FeaturedOn(today), HomeListSize, all[i]);
    }
  }

  /** The same first-matches law for the trending list. */
  lemma TrendingAreFirstMatches(all: seq<Series>, today: int, i: int)
    requires 0 <= i < |all| && IsTrending(all[i])
    ensures var before := |Keep(all[..i], IsTrending)|;
      var trending := HomeQueryset(all, today).trending;
      && (before < HomeListSize ==> before < |trending| && trending[before] == all[i])
      && (all[i] !in trending ==> |trending| == HomeListSize)
  {
    TakeKeepPosition(all, IsTrending, HomeListSize, i);
    if all[i] !in HomeQueryset(all, today).trending {
      TakeKeepSkipsOnlyWhenFull(all, IsTrending, HomeListSize, all[i]);
    }
  }

  /** No series left out of the newest list was created after one in it. */
  lemma NewestDominatesOmitted(all: seq<Series>, today: int)
    ensures var newest := HomeQueryset(all, today).newest;
      forall s, x :: s in all && s !in newest && x in newest ==> s.createdAt <= x.createdAt
  {
    var sorted := SortDesc(all, CreatedAtOf);
    var newest := HomeQueryset(all, today).newest;
    assert newest == Newest(all) == Take(sorted, HomeListSize);
    TopNDominates(sorted, CreatedAtOf, HomeListSize);
    forall s, x | s in all && s !in newest && x in newest
      ensures s.createdAt <= x.createdAt
    {
      assert s in multiset(all);
      assert s in sorted;
      var k :| 0 <= k < |sorted| && sorted[k] == s;
      var j :| 0 <= j < |newest| && newest[j] == x;
      assert k >= |newest|;
      assert CreatedAtOf(sorted[k]) <= CreatedAtOf(newest[j]);
    }
  }

  /** `ReviewListView.get_queryset`: no id gives no reviews; an id gives that
      series' reviews in store order. The URL route captures the id as a
      non-empty string, so any given id is truthy. */
  function ReviewList(reviews: seq<Review>, seriesId: Option<int>): (r: seq<Review>)
    ensures seriesId.None? ==> r == []
    ensures seriesId.Some? ==> forall v :: v in r <==> v in reviews && v.series == seriesId.value
    ensures IsSubseq(r, reviews)
  {
    match seriesId
    case None => []
    case Some(id) =>
      KeepIsSubseq(reviews, OfSeries(id));
      Keep(reviews, OfSeries(id))
  }

  /** A review of the given series. */
  function OfSeries(id: int): Review -> bool {
    (v: Review) => v.series == id
  }

  /** Why a review could not be created. */
  datatype ReviewError =
    | UnknownSeries      // the series key does not name a series
    | DuplicateReview    // the (user, series) constraint already holds a row

  /** `ReviewCreateView.perform_create`: the review is saved with the
      requesting user as its author, whatever the request body said. The
      primary key is the next free one. */
  function CreateReview(st: Store, requestUser: int, seriesId: int, rating: int, comment: Option<string>)
    : (r: Result<Store, ReviewError>)
    requires requestUser in st.users
    ensures r.Failure? && r.error == UnknownSeries <==> seriesId !in SeriesIds(st.series)
    ensures r.Failure? && r.error == DuplicateReview <==>
      seriesId in SeriesIds(st.series) && exists v :: v in st.reviews && v.user == requestUser && v.series == seriesId
    ensures r.Success? ==>
      && |r.value.reviews| == |st.reviews| + 1
      && r.value.reviews[..|st.reviews|] == st.reviews
      && var created := r.value.reviews[|st.reviews|];
      && created.user == requestUser && created.series == seriesId
      && created.rating == rating && created.comment == comment
    ensures r.Success? ==> r.value.(reviews := st.reviews) == st
    ensures r.Success? && Valid(st) ==> Valid(r.value)
  {
    if seriesId !in SeriesIds(st.series) then Failure(UnknownSeries)
    else if exists v :: v in st.reviews && v.user == requestUser && v.series == seriesId then Failure(DuplicateReview)
    else
      var v := Review(FreshId(st.reviews, ReviewIdOf), requestUser, seriesId, rating, comment);
      AppendDistinctWhere(st.reviews, v, ReviewIdOf, Always);
      AppendDistinctWhere(st.reviews, v, ReviewKey, Always);
      Success(st.(reviews := st.reviews + [v]))
  }

  /** A review appended to the table, as `CreateReview` does, is listed for
      its series right after the reviews the series already had. */
  lemma {:induction false} AppendedReviewIsListed(reviews: seq<Review>, created: Review)
    ensures ReviewList(reviews + [created], Some(created.series)) == ReviewList(reviews, Some(created.series)) + [created]
  {
    KeepAppend(reviews, [created], OfSeries(created.series));
    assert Keep([created], OfSeries(created.series)) == [created];
  }

  /** Appending a review leaves the review list of every other series as it was. */
  lemma {:induction false} AppendedReviewLeavesOthers(reviews: seq<Review>, created: Review, other: int)
    requires other != created.series
    ensures ReviewList(reviews + [created], Some(other)) == ReviewList(reviews, Some(other))
  {
    KeepAppend(reviews, [created], OfSeries(other));
    assert Keep([created], OfSeries(other)) == [];
  }
}

=== FILE: core_tags.dfy ===
/** The template helpers of src/core/templatetags/core_tags.py:
    `relative_url`, which rebuilds a query string with one parameter moved
    to the front, the ordered classifier `alert_type_class`, and the
    defaulting filter `check_null`. */
module CoreTags {
  import opened Wrappers
  import opened Seqs

  // ---------------------------------------------------------------- split and join

  /** Python's `s.split(sep)`: the pieces between separators, always at least one. */
  function Split(s: string, sep: char): (r: seq<string>)
    ensures |r| >= 1
    ensures forall i :: 0 <= i < |r| ==> sep !in r[i]
    decreases |s|
  {
    if |s| == 0 then [""]
    else
      var rest := Split(s[1..], sep);
      if s[0] == sep then [""] + rest
      else [[s[0]] + rest[0]] + rest[1..]
  }

  /** Python's `sep.join(parts)`. */
  function Join(parts: seq<string>, sep: char): string
    decreases |parts|
  {
    if |parts| == 0 then ""
    else if |parts| == 1 then parts[0]
    else parts[0] + [sep] + Join(parts[1..], sep)
  }

  /** Joining the pieces of a split gives back the original text. */
  lemma {:induction false} JoinSplit(s: string, sep: char)
    ensures Join(Split(s, sep), sep) == s
    decreases |s|
  {
    if |s| != 0 {
      JoinSplit(s[1..], sep);
      var rest := Split(s[1..], sep);
      if s[0] == sep {
        assert Split(s, sep)[1..] == rest;
      } else {
        var r := Split(s, sep);
        assert r[1..] == rest[1..];
        if |rest| == 1 {
          assert r == [[s[0]] + rest[0]];
        } else {
          assert Join(rest, sep) == rest[0] + [sep] + Join(rest[1..], sep);
        }
        assert s == [s[0]] + s[1..];
      }
    }
  }

  /** A text without separators splits into itself alone. */
  lemma {:induction false} SplitNoSeparator(a: string, sep: char)
    requires sep !in a
    ensures Split(a, sep) == [a]
    decreases |a|
  {
    if |a| != 0 {
      assert sep !in a[1..];
      SplitNoSeparator(a[1..], sep);
      assert [a[0]] + a[1..] == a;
    }
  }

  /** Splitting a separator-free piece followed by a separator peels that piece off. */
  lemma {:induction false} SplitAfterPiece(a: string, sep: char, b: string)
    requires sep !in a
    ensures Split(a + [sep] + b, sep) == [a] + Split(b, sep)
    decreases |a|
  {
    var s := a + [sep] + b;
    if |a| == 0 {
      assert s[0] == sep && s[1..] == b;
    } else {
      assert s[0] == a[0] && s[1..] == a[1..] + [sep] + b;
      assert sep !in a[1..];
      SplitAfterPiece(a[1..], sep, b);
      assert [a[0]] + a[1..] == a;
    }
  }

  /** Splitting a join of separator-free pieces gives back the pieces. */
  lemma {:induction false} SplitJoin(parts: seq<string>, sep: char)
    requires |parts| >= 1
    requires forall i :: 0 <= i < |parts| ==> sep !in parts[i]
    ensures Split(Join(parts, sep), sep) == parts
    decreases |parts|
  {
    if |parts| == 1 {
      SplitNoSeparator(parts[0], sep);
    } else {
      SplitJoin(parts[1..], sep);
      SplitAfterPiece(parts[0], sep, Join(parts[1..], sep));
      assert [parts[0]] + parts[1..] == parts;
    }
  }

  /** Implication form of `SplitJoin`, for use inside function bodies. */
  lemma SplitJoinNonEmpty(parts: seq<string>, sep: char)
    requires forall i :: 0 <= i < |parts| ==> sep !in parts[i]
    ensures |parts| >= 1 ==> Split(Join(parts, sep), sep) == parts
  {
    if |parts| >= 1 {
      SplitJoin(parts, sep);
    }
  }

  // ---------------------------------------------------------------- relative_url

  /** The key of a `key=value` query segment: the text before the first `=`,
      or the whole segment when it has none (`p.split('=')[0]`). */
  function Key(segment: string): string {
    Split(segment, '=')[0]
  }

  /** A segment that does not set the given parameter. */
  function KeyIsNot(fieldName: string): string -> bool {
    (segment: string) => Key(segment) != fieldName
  }

  /** The text `relative_url` always starts with. */
  function UrlPrefix(value: string, fieldName: string): string {
    "?" + fieldName + "=" + value
  }

  /** `survivors` are the segments of `segments` that do not set `fieldName`:
      in their original order, each as often as it occurs there, and no
      segment that sets it. */
  ghost predicate KeptExactly(survivors: seq<string>, segments: seq<string>, fieldName: string) {
    && IsSubseq(survivors, segments)
    && (forall seg :: seg in survivors ==> Key(seg) != fieldName)
    && (forall seg :: seg in segments && Key(seg) != fieldName ==> seg in survivors)
    && (forall seg ::
          multiset(survivors)[seg] == if Key(seg) != fieldName then multiset(segments)[seg] else 0)
  }

  /** The segments of a query string that do not set `fieldName`, in order. */
  function Survivors(query: string, fieldName: string): (kept: seq<string>)
    ensures IsSubseq(kept, Split(query, '&'))
    ensures forall seg :: seg in kept <==> seg in Split(query, '&') && Key(seg) != fieldName
    ensures forall seg ::
              multiset(kept)[seg] == if Key(seg) != fieldName then multiset(Split(query, '&'))[seg] else 0
    ensures forall i :: 0 <= i < |kept| ==> '&' !in kept[i]
  {
    var segments := Split(query, '&');
    var kept := Keep(segments, KeyIsNot(fieldName));
    assert forall seg :: KeyIsNot(fieldName)(seg) <==> Key(seg) != fieldName;
    KeepIsSubseq(segments, KeyIsNot(fieldName));
    forall seg ensures multiset(kept)[seg] == if Key(seg) != fieldName then multiset(segments)[seg] else 0 {
      KeepCount(segments, KeyIsNot(fieldName), seg);
    }
    assert forall i :: 0 <= i < |kept| ==> '&' !in kept[i] by {
      forall i | 0 <= i < |kept| ensures '&' !in kept[i] {
        assert kept[i] in segments;
      }
    }
    kept
  }

  /** `relative_url`: the parameter `fieldName=value` first, then, when a
      non-empty query string is given, a `&` and the query string's other
      segments in their original order. */
  function RelativeUrl(value: string, fieldName: string, urlencode: Option<string>): (r: string)
    ensures var prefix := UrlPrefix(value, fieldName);
      |r| >= |prefix| && r[..|prefix|] == prefix
    ensures urlencode.None? || urlencode.value == "" ==> r == UrlPrefix(value, fieldName)
    ensures urlencode.Some? && urlencode.value != "" ==>
      var prefix := UrlPrefix(value, fieldName);
      var segments := Split(urlencode.value, '&');
      && |r| > |prefix| && r[|prefix|] == '&'
      && var rest := r[|prefix| + 1..];
      && ((forall seg :: seg in segments ==> Key(seg) == fieldName) ==> rest == "")
      && ((exists seg :: seg in segments && Key(seg) != fieldName) ==>
          KeptExactly(Split(rest, '&'), segments, fieldName))
  {
    var url := UrlPrefix(value, fieldName);
    match urlencode
    case None => url
    case Some(query) =>
      if query == "" then url
      else
        var kept := Survivors(query, fieldName);
        SplitJoinNonEmpty(kept, '&');
        assert KeptExactly(kept, Split(query, '&'), fieldName);
        assert |kept| > 0 ==> kept[0] in kept;
        var r := url + "&" + Join(kept, '&');
        assert r[..|url|] == url;
        assert r[|url| + 1..] == Join(kept, '&');
        r
  }

  // ---------------------------------------------------------------- alert_type_class

  /** The value lists of `alert_type_class`, consulted in this order. */
  const PrimaryValues: seq<string> := ["cod", "delivery", "in_transit", "bank_account", "MANAGER", "trialing", "new"]
  const InfoValues: seq<string> :=
    ["cod", "delivery", "in_transit", "bank_account", "CASHIER", "incomplete", "incomplete_expired", "closed"]
  const SuccessValues: seq<string> :=
    ["completed", "success", "approved", "paid", "card", "OWNER", "active", "sent", "resolved"]
  const WarningValues: seq<string> := ["pending", "STAFF", "ADMIN", "past_due", "pause", "in_progress"]
  const DangerValues: seq<string> := ["online", "cancel", "cancelled", "unpaid", "failed", "ROOT", "failed"]

  /** The classes `alert_type_class` can answer. */
  const AlertClasses: set<string> := {"primary", "info", "success", "warning", "danger", "secondary"}

  /** `alert_type_class`: the class of the first list that holds the value,
      `secondary` when none does. */
  function AlertTypeClass(value: string): (r: string)
    ensures r in AlertClasses
    ensures r == "primary" <==> value in PrimaryValues
    ensures r == "info" <==> value !in PrimaryValues && value in InfoValues
    ensures r == "success" <==> value !in PrimaryValues && value !in InfoValues && value in SuccessValues
    ensures r == "warning" <==>
      value !in PrimaryValues && value !in InfoValues && value !in SuccessValues && value in WarningValues
    ensures r == "danger" <==>
      value !in PrimaryValues && value !in InfoValues && value !in SuccessValues && value !in WarningValues
      && value in DangerValues
    ensures r == "secondary" <==>
      value !in PrimaryValues && value !in InfoValues && value !in SuccessValues && value !in WarningValues
      && value !in DangerValues
  {
    if value in PrimaryValues then "primary"
    else if value in InfoValues then "info"
    else if value in SuccessValues then "success"
    else if value in WarningValues then "warning"
    else if value in DangerValues then "danger"
    else "secondary"
  }

  /** The four values listed under both primary and info are classed primary,
      so the info list's copies of them are never reached. */
  lemma SharedValuesArePrimary(value: string)
    requires value in {"cod", "delivery", "in_transit", "bank_account"}
    ensures value in InfoValues
    ensures AlertTypeClass(value) == "primary"
  {
  }

  // ---------------------------------------------------------------- check_null

  /** The kinds of value a template can hand to a filter. */
  datatype TemplateValue = NoneValue | Text(text: string) | Number(number: int) | Flag(flag: bool)

  /** Python truthiness of a template value. */
  predicate Truthy(v: TemplateValue) {
    match v
    case NoneValue => false
    case Text(s) => s != ""
    case Number(n) => n != 0
    case Flag(b) => b
  }

  /** `check_null`: a falsy value is shown as a dash, anything else as itself. */
  function CheckNull(v: TemplateValue): (r: TemplateValue)
    ensures Truthy(v) ==> r == v
    ensures !Truthy(v) ==> r == Text("-")
    ensures Truthy(r)
  {
    if Truthy(v) then v else Text("-")
  }

  /** Applying `check_null` twice equals applying it once. */
  lemma CheckNullIdempotent(v: TemplateValue)
    ensures CheckNull(CheckNull(v)) == CheckNull(v)
  {
  }
}

=== FILE: drama_models.dfy ===
/** The catalogue models of src/services/drama/models.py: the derived
    per-series predicates, the slug default of categories and tags, and the
    relational store with its uniqueness constraints and `on_delete` rules.
    Dates are whole day numbers; "today" is always a parameter. */
module DramaModels {
  import opened Wrappers
  import opened Seqs
  import Users

  /** A `DramaSeries` row. Counters are `PositiveIntegerField`s, hence `nat`;
      `createdAt` is the creation instant as one integer. */
  datatype Series = Series(
    id: int,
    title: string,
    slug: string,
    releaseDate: int,
    director: Option<int>,
    viewCount: nat,
    searchCount: nat,
    isFeatured: bool,
    featuredUntil: Option<int>,
    trendingThreshold: nat,
    createdAt: int)

  /** `is_currently_featured`: flagged, with a featured-until day that is today or later. */
  predicate IsCurrentlyFeatured(s: Series, today: int) {
    s.isFeatured && s.featuredUntil.Some? && s.featuredUntil.value >= today
  }

  /** `is_trending`: at least as many views as the series' own threshold. */
  predicate IsTrending(s: Series) {
    s.viewCount >= s.trendingThreshold
  }

  /** `upcoming_series`: released strictly after today. */
  predicate IsUpcoming(s: Series, today: int) {
    s.releaseDate > today
  }

  /** `is_currently_featured` as a condition on series, for filtering. */
  function FeaturedOn(today: int): Series -> bool {
    (s: Series) => IsCurrentlyFeatured(s, today)
  }

  /** `upcoming_series` as a condition on series, for filtering. */
  function UpcomingOn(today: int): Series -> bool {
    (s: Series) => IsUpcoming(s, today)
  }

  /** Without the flag or without an end day a series is never featured. */
  lemma FeaturedNeedsFlagAndEndDay(s: Series, today: int)
    ensures !s.isFeatured ==> !IsCurrentlyFeatured(s, today)
    ensures s.featuredUntil.None? ==> !IsCurrentlyFeatured(s, today)
  {
  }

  /** A series featured on some day was featured on every earlier day, and
      stops being featured the day after its end day. */
  lemma FeaturedOnEarlierDays(s: Series, day: int, earlier: int)
    requires earlier <= day && IsCurrentlyFeatured(s, day)
    ensures IsCurrentlyFeatured(s, earlier)
    ensures !IsCurrentlyFeatured(s, s.featuredUntil.value + 1)
  {
  }

  /** The threshold itself counts as trending, and more views never end trending. */
  lemma TrendingIsMonotone(s: Series, views: nat)
    requires views >= s.viewCount
    ensures s.viewCount == s.trendingThreshold ==> IsTrending(s)
    ensures IsTrending(s) ==> IsTrending(s.(viewCount := views))
  {
  }

  /** A series released today is no longer upcoming. */
  lemma UpcomingIsStrict(s: Series, today: int)
    ensures s.releaseDate == today ==> !IsUpcoming(s, today)
    ensures IsUpcoming(s, today) ==> s.releaseDate >= today + 1
  {
  }

  // ---------------------------------------------------------------- slugs

  datatype Category = Category(id: int, name: string, slug: string)
  datatype Tag = Tag(id: int, name: string, slug: string)

  /** `Category.save`: an empty slug is filled from the name by `slugify`,
      which is an uninterpreted parameter; any other slug is kept. */
  function SaveCategory(c: Category, slugify: string -> string): (r: Category)
    ensures r.id == c.id && r.name == c.name
    ensures c.slug != "" ==> r == c
    ensures c.slug == "" ==> r.slug == slugify(c.name)
  {
    if c.slug == "" then c.(slug := slugify(c.name)) else c
  }

  /** `Tag.save`: the same defaulting rule as for categories. */
  function SaveTag(t: Tag, slugify: string -> string): (r: Tag)
    ensures r.id == t.id && r.name == t.name
    ensures t.slug != "" ==> r == t
    ensures t.slug == "" ==> r.slug == slugify(t.name)
  {
    if t.slug == "" then t.(slug := slugify(t.name)) else t
  }

  /** Saving a category twice equals saving it once. */
  lemma SaveCategoryIdempotent(c: Category, slugify: string -> string)
    ensures SaveCategory(SaveCategory(c, slugify), slugify) == SaveCategory(c, slugify)
  {
  }

  /** Saving a tag twice equals saving it once. */
  lemma SaveTagIdempotent(t: Tag, slugify: string -> string)
    ensures SaveTag(SaveTag(t, slugify), slugify) == SaveTag(t, slugify)
  {
  }

  // ---------------------------------------------------------------- rows

  datatype Season = Season(
    id: int,
    series: int,
    seasonNumber: int,
    releaseDate: int,
    description: Option<string>)

  datatype Episode = Episode(
    id: int,
    title: string,
    season: int,
    episodeNumber: int,
    releaseDate: int,
    videoFileName: Option<string>,
    videoFile: Option<string>,
    isFree: bool,
    viewCount: nat,
    isActive: bool)

  /** A review; `rating` is the decimal rating in tenths and carries no logic here. */
  datatype Review = Review(id: int, user: int, series: int, rating: int, comment: Option<string>)

  /** A like; its series column is nullable. */
  datatype Like = Like(id: int, user: int, series: Option<int>)

  /** A row of one of the join tables (series-tag, series-language,
      series-cast, series-category): `item` is the tag, language, actor or
      category id. Join rows carry no key of their own that the code reads. */
  datatype Link = Link(series: int, item: int)

  /** The whole catalogue. Tables whose order a query can observe are
      sequences in store order; lookup tables are sets of ids. */
  datatype Store = Store(
    users: map<int, Users.User>,
    directors: set<int>,
    actors: set<int>,
    tags: set<int>,
    languages: set<int>,
    categories: set<int>,
    series: seq<Series>,
    seasons: seq<Season>,
    episodes: seq<Episode>,
    reviews: seq<Review>,
    likes: seq<Like>,
    tagLinks: seq<Link>,
    languageLinks: seq<Link>,
    castLinks: seq<Link>,
    categoryLinks: seq<Link>)

  function SeriesIdOf(s: Series): int { s.id }
  function SeriesSlugOf(s: Series): string { s.slug }
  function SeasonIdOf(x: Season): int { x.id }
  /** The `unique_together` key of a season. */
  function SeasonKey(x: Season): (int, int) { (x.series, x.seasonNumber) }
  function EpisodeIdOf(e: Episode): int { e.id }
  /** The `unique_together` key of an episode. */
  function EpisodeKey(e: Episode): (int, int) { (e.season, e.episodeNumber) }
  function ReviewIdOf(r: Review): int { r.id }
  /** The `unique_together` key of a review. */
  function ReviewKey(r: Review): (int, int) { (r.user, r.series) }
  function LikeIdOf(l: Like): int { l.id }
  /** The `unique_together` key of a like. */
  function LikeKey(l: Like): (int, Option<int>) { (l.user, l.series) }
  /** A like whose key holds no NULL, so that the constraint applies to it. */
  function LikeHasSeries(l: Like): bool { l.series.Some? }

  function SeriesIds(ss: seq<Series>): set<int> {
    set s | s in ss :: s.id
  }

  function SeasonIds(ss: seq<Season>): set<int> {
    set x | x in ss :: x.id
  }

  /** The declared primary keys and `unique`/`unique_together` constraints. */
  predicate Unique(st: Store) {
    && DistinctKeys(st.series, SeriesIdOf)
    && DistinctKeys(st.series, SeriesSlugOf)
    && DistinctKeys(st.seasons, SeasonIdOf)
    && DistinctKeys(st.seasons, SeasonKey)
    && DistinctKeys(st.episodes, EpisodeIdOf)
    && DistinctKeys(st.episodes, EpisodeKey)
    && DistinctKeys(st.reviews, ReviewIdOf)
    && DistinctKeys(st.reviews, ReviewKey)
    && DistinctKeys(st.likes, LikeIdOf)
    && DistinctWhere(st.likes, LikeKey, LikeHasSeries)
  }

  predicate LinksRefer(links: seq<Link>, series: set<int>, items: set<int>) {
    forall l :: l in links ==> l.series in series && l.item in items
  }

  /** Every foreign key points at an existing row. */
  predicate References(st: Store) {
    var ids := SeriesIds(st.series);
    && (forall s :: s in st.series && s.director.Some? ==> s.director.value in st.directors)
    && (forall x :: x in st.seasons ==> x.series in ids)
    && (forall e :: e in st.episodes ==> e.season in SeasonIds(st.seasons))
    && (forall r :: r in st.reviews ==> r.series in ids && r.user in st.users)
    && (forall l :: l in st.likes ==> l.user in st.users && (l.series.Some? ==> l.series.value in ids))
    && LinksRefer(st.tagLinks, ids, st.tags)
    && LinksRefer(st.languageLinks, ids, st.languages)
    && LinksRefer(st.castLinks, ids, st.actors)
    && LinksRefer(st.categoryLinks, ids, st.categories)
  }

  /** A store that respects every declared constraint. */
  predicate Valid(st: Store) {
    Unique(st) && References(st)
  }

  /** In a valid store no two different rows share a `unique_together` key. */
  lemma ValidHasNoDuplicateKeys(st: Store)
    requires Valid(st)
    ensures forall a, b :: a in st.seasons && b in st.seasons && a != b ==> SeasonKey(a) != SeasonKey(b)
    ensures forall a, b :: a in st.episodes && b in st.episodes && a != b ==> EpisodeKey(a) != EpisodeKey(b)
    ensures forall a, b :: a in st.reviews && b in st.reviews && a != b ==> ReviewKey(a) != ReviewKey(b)
    ensures forall a, b :: a in st.likes && b in st.likes && a != b && a.series.Some? && b.series.Some? ==>
      LikeKey(a) != LikeKey(b)
  {
    forall a, b | a in st.seasons && b in st.seasons && a != b
      ensures SeasonKey(a) != SeasonKey(b)
    {
      DistinctRows(st.seasons, SeasonKey, Always, a, b);
    }
    forall a, b | a in st.episodes && b in st.episodes && a != b
      ensures EpisodeKey(a) != EpisodeKey(b)
    {
      DistinctRows(st.episodes, EpisodeKey, Always, a, b);
    }
    forall a, b | a in st.reviews && b in st.reviews && a != b
      ensures ReviewKey(a) != ReviewKey(b)
    {
      DistinctRows(st.reviews, ReviewKey, Always, a, b);
    }
    forall a, b | a in st.likes && b in st.likes && a != b && a.series.Some? && b.series.Some?
      ensures LikeKey(a) != LikeKey(b)
    {
      DistinctRows(st.likes, LikeKey, LikeHasSeries, a, b);
    }
  }

  // ---------------------------------------------------------------- episode count

  /** The series a season id belongs to, following the season foreign key. */
  function SeriesOfSeason(seasons: seq<Season>, seasonId: int): (r: Option<int>)
    ensures r.Some? <==> seasonId in SeasonIds(seasons)
    ensures r.Some? ==> exists x :: x in seasons && x.id == seasonId && x.series == r.value
  {
    if |seasons| == 0 then None
    else if seasons[0].id == seasonId then Some(seasons[0].series)
    else SeriesOfSeason(seasons[1..], seasonId)
  }

  /** `get_total_episodes`: the episodes whose season belongs to the series
      (the join `season__series`). */
  function TotalEpisodes(episodes: seq<Episode>, seasons: seq<Season>, seriesId: int): (r: nat)
    ensures r <= |episodes|
    ensures r > 0 ==> exists e :: e in episodes && SeriesOfSeason(seasons, e.season) == Some(seriesId)
  {
    if |episodes| == 0 then 0
    else
      (if SeriesOfSeason(seasons, episodes[0].season) == Some(seriesId) then 1 else 0)
      + TotalEpisodes(episodes[1..], seasons, seriesId)
  }

  /** The number of episodes of one season. */
  function EpisodesInSeason(episodes: seq<Episode>, seasonId: int): nat {
    if |episodes| == 0 then 0
    else (if episodes[0].season == seasonId then 1 else 0) + EpisodesInSeason(episodes[1..], seasonId)
  }

  /** The sum of the episode counts of the seasons of `ss` that belong to the series. */
  function SumOverSeasons(ss: seq<Season>, seriesId: int, episodes: seq<Episode>): nat {
    if |ss| == 0 then 0
    else
      (if ss[0].series == seriesId then EpisodesInSeason(episodes, ss[0].id) else 0)
      + SumOverSeasons(ss[1..], seriesId, episodes)
  }

  /** How many seasons of `ss` are the season of `e` and belong to the series. */
  function Hits(ss: seq<Season>, seriesId: int, e: Episode): nat {
    if |ss| == 0 then 0
    else (if ss[0].series == seriesId && ss[0].id == e.season then 1 else 0) + Hits(ss[1..], seriesId, e)
  }

  lemma {:induction false} SumOverNoEpisodes(ss: seq<Season>, seriesId: int)
    ensures SumOverSeasons(ss, seriesId, []) == 0
    decreases |ss|
  {
    if |ss| != 0 {
      SumOverNoEpisodes(ss[1..], seriesId);
    }
  }

  lemma {:induction false} SumOverFirstEpisode(ss: seq<Season>, seriesId: int, episodes: seq<Episode>)
    requires |episodes| > 0
    ensures SumOverSeasons(ss, seriesId, episodes)
      == Hits(ss, seriesId, episodes[0]) + SumOverSeasons(ss, seriesId, episodes[1..])
    decreases |ss|
  {
    if |ss| != 0 {
      SumOverFirstEpisode(ss[1..], seriesId, episodes);
    }
  }

  lemma {:induction false} HitsIsIndicator(ss: seq<Season>, seriesId: int, e: Episode)
    requires DistinctKeys(ss, SeasonIdOf)
    ensures Hits(ss, seriesId, e) == if SeriesOfSeason(ss, e.season) == Some(seriesId) then 1 else 0
    decreases |ss|
  {
    if |ss| != 0 {
      var tail := ss[1..];
      assert DistinctKeys(tail, SeasonIdOf) by {
        forall i, j | 0 <= i < j < |tail| ensures SeasonIdOf(tail[i]) != SeasonIdOf(tail[j]) {
          assert tail[i] == ss[i + 1] && tail[j] == ss[j + 1];
        }
      }
      HitsIsIndicator(tail, seriesId, e);
    }
  }

  /** Counting a series' episodes through the join equals summing the episode
      counts of its seasons, provided season ids are unique. */
  lemma {:induction false} TotalEpisodesIsSumOverSeasons(episodes: seq<Episode>, seasons: seq<Season>, seriesId: int)
    requires DistinctKeys(seasons, SeasonIdOf)
    ensures TotalEpisodes(episodes, seasons, seriesId) == SumOverSeasons(seasons, seriesId, episodes)
    decreases |episodes|
  {
    if |episodes| == 0 {
      SumOverNoEpisodes(seasons, seriesId);
    } else {
      TotalEpisodesIsSumOverSeasons(episodes[1..], seasons, seriesId);
      SumOverFirstEpisode(seasons, seriesId, episodes);
      HitsIsIndicator(seasons, seriesId, episodes[0]);
    }
  }

  /** With no season of the series left, the series has no episodes. */
  lemma {:induction false} NoSeasonsNoEpisodes(episodes: seq<Episode>, seasons: seq<Season>, seriesId: int)
    requires forall x :: x in seasons ==> x.series != seriesId
    ensures TotalEpisodes(episodes, seasons, seriesId) == 0
    decreases |episodes|
  {
    if |episodes| != 0 {
      NoSeasonsNoEpisodes(episodes[1..], seasons, seriesId);
    }
  }

  // ---------------------------------------------------------------- on_delete

  /** The ids of the seasons that belong to a series. */
  function SeasonIdsOfSeries(seasons: seq<Season>, seriesId: int): set<int> {
    set x | x in seasons && x.series == seriesId :: x.id
  }

  /** The series table without the deleted series. */
  function DropSeries(ss: seq<Series>, seriesId: int): (r: seq<Series>)
    ensures forall s :: s in r <==> s in ss && s.id != seriesId
    ensures DistinctKeys(ss, SeriesIdOf) ==> DistinctKeys(r, SeriesIdOf)
    ensures DistinctKeys(ss, SeriesSlugOf) ==> DistinctKeys(r, SeriesSlugOf)
  {
    var p := (s: Series) => s.id != seriesId;
    KeepKeepsDistinct(ss, p, SeriesIdOf, Always);
    KeepKeepsDistinct(ss, p, SeriesSlugOf, Always);
    Keep(ss, p)
  }

  /** The season table without the seasons of the deleted series. */
  function DropSeasons(seasons: seq<Season>, seriesId: int): (r: seq<Season>)
    ensures forall x :: x in r <==> x in seasons && x.series != seriesId
    ensures DistinctKeys(seasons, SeasonIdOf) ==> DistinctKeys(r, SeasonIdOf)
    ensures DistinctKeys(seasons, SeasonKey) ==> DistinctKeys(r, SeasonKey)
  {
    var p := (x: Season) => x.series != seriesId;
    KeepKeepsDistinct(seasons, p, SeasonIdOf, Always);
    KeepKeepsDistinct(seasons, p, SeasonKey, Always);
    Keep(seasons, p)
  }

  /** The episode table without the episodes of the deleted seasons. */
  function DropEpisodes(episodes: seq<Episode>, gone: set<int>): (r: seq<Episode>)
    ensures forall e :: e in r <==> e in episodes && e.season !in gone
    ensures DistinctKeys(episodes, EpisodeIdOf) ==> DistinctKeys(r, EpisodeIdOf)
    ensures DistinctKeys(episodes, EpisodeKey) ==> DistinctKeys(r, EpisodeKey)
  {
    var p := (e: Episode) => e.season !in gone;
    KeepKeepsDistinct(episodes, p, EpisodeIdOf, Always);
    KeepKeepsDistinct(episodes, p, EpisodeKey, Always);
    Keep(episodes, p)
  }

  /** The review table without the reviews of the deleted series. */
  function DropReviews(reviews: seq<Review>, seriesId: int): (r: seq<Review>)
    ensures forall v :: v in r <==> v in reviews && v.series != seriesId
    ensures DistinctKeys(reviews, ReviewIdOf) ==> DistinctKeys(r, ReviewIdOf)
    ensures DistinctKeys(reviews, ReviewKey) ==> DistinctKeys(r, ReviewKey)
  {
    var p := (v: Review) => v.series != seriesId;
    KeepKeepsDistinct(reviews, p, ReviewIdOf, Always);
    KeepKeepsDistinct(reviews, p, ReviewKey, Always);
    Keep(reviews, p)
  }

  /** The like table without the likes of the deleted series. */
  function DropLikes(likes: seq<Like>, seriesId: int): (r: seq<Like>)
    ensures forall l :: l in r <==> l in likes && l.series != Some(seriesId)
    ensures DistinctKeys(likes, LikeIdOf) ==> DistinctKeys(r, LikeIdOf)
    ensures DistinctWhere(likes, LikeKey, LikeHasSeries) ==> DistinctWhere(r, LikeKey, LikeHasSeries)
  {
    var p := (l: Like) => l.series != Some(seriesId);
    KeepKeepsDistinct(likes, p, LikeIdOf, Always);
    KeepKeepsDistinct(likes, p, LikeKey, LikeHasSeries);
    Keep(likes, p)
  }

  /** A join row that belongs to some other series. */
  function OtherSeries(seriesId: int): Link -> bool {
    (l: Link) => l.series != seriesId
  }

  /** A join table without the rows of the deleted series; the other rows
      stay in order, each as often as before. */
  function DropLinks(links: seq<Link>, seriesId: int): (r: seq<Link>)
    ensures forall l :: l in r <==> l in links && l.series != seriesId
    ensures IsSubseq(r, links)
    ensures forall l :: multiset(r)[l] == if l.series == seriesId then 0 else multiset(links)[l]
  {
    var other := OtherSeries(seriesId);
    assert forall l :: other(l) <==> l.series != seriesId;
    KeepIsSubseq(links, other);
    forall l ensures multiset(Keep(links, other))[l] == if l.series == seriesId then 0 else multiset(links)[l] {
      KeepCount(links, other, l);
    }
    Keep(links, other)
  }

  /** Deleting a series: seasons, reviews, likes and join rows of the series
      go with it (`CASCADE`), and so, transitively, do the episodes of its seasons. */
  function DeleteSeries(st: Store, seriesId: int): (r: Store)
    ensures forall s :: s in r.series <==> s in st.series && s.id != seriesId
    ensures forall x :: x in r.seasons <==> x in st.seasons && x.series != seriesId
    ensures forall e :: e in r.episodes <==> e in st.episodes && e.season !in SeasonIdsOfSeries(st.seasons, seriesId)
    ensures forall v :: v in r.reviews <==> v in st.reviews && v.series != seriesId
    ensures forall l :: l in r.likes <==> l in st.likes && l.series != Some(seriesId)
    ensures forall l :: l in r.tagLinks <==> l in st.tagLinks && l.series != seriesId
    ensures forall l :: l in r.languageLinks <==> l in st.languageLinks && l.series != seriesId
    ensures forall l :: l in r.castLinks <==> l in st.castLinks && l.series != seriesId
    ensures forall l :: l in r.categoryLinks <==> l in st.categoryLinks && l.series != seriesId
    ensures IsSubseq(r.tagLinks, st.tagLinks) && IsSubseq(r.languageLinks, st.languageLinks)
    ensures IsSubseq(r.castLinks, st.castLinks) && IsSubseq(r.categoryLinks, st.categoryLinks)
    ensures forall l :: multiset(r.tagLinks)[l] == if l.series == seriesId then 0 else multiset(st.tagLinks)[l]
    ensures forall l ::
      multiset(r.languageLinks)[l] == if l.series == seriesId then 0 else multiset(st.languageLinks)[l]
    ensures forall l :: multiset(r.castLinks)[l] == if l.series == seriesId then 0 else multiset(st.castLinks)[l]
    ensures forall l ::
      multiset(r.categoryLinks)[l] == if l.series == seriesId then 0 else multiset(st.categoryLinks)[l]
    ensures r.users == st.users && r.directors == st.directors && r.actors == st.actors
    ensures r.tags == st.tags && r.languages == st.languages && r.categories == st.categories
    ensures Valid(st) ==> Valid(r)
  {
    var r := st.(
      series := DropSeries(st.series, seriesId),
      seasons := DropSeasons(st.seasons, seriesId),
      episodes := DropEpisodes(st.episodes, SeasonIdsOfSeries(st.seasons, seriesId)),
      reviews := DropReviews(st.reviews, seriesId),
      likes := DropLikes(st.likes, seriesId),
      tagLinks := DropLinks(st.tagLinks, seriesId),
      languageLinks := DropLinks(st.languageLinks, seriesId),
      castLinks := DropLinks(st.castLinks, seriesId),
      categoryLinks := DropLinks(st.categoryLinks, seriesId));
    DeleteSeriesKeepsReferences(st, r, seriesId);
    r
  }

  /** The reference half of `Valid` survives the cascade. */
  lemma DeleteSeriesKeepsReferences(st: Store, r: Store, seriesId: int)
    requires forall s :: s in r.series <==> s in st.series && s.id != seriesId
    requires forall x :: x in r.seasons <==> x in st.seasons && x.series != seriesId
    requires forall e :: e in r.episodes <==> e in st.episodes && e.season !in SeasonIdsOfSeries(st.seasons, seriesId)
    requires forall v :: v in r.reviews <==> v in st.reviews && v.series != seriesId
    requires forall l :: l in r.likes <==> l in st.likes && l.series != Some(seriesId)
    requires forall l :: l in r.tagLinks <==> l in st.tagLinks && l.series != seriesId
    requires forall l :: l in r.languageLinks <==> l in st.languageLinks && l.series != seriesId
    requires forall l :: l in r.castLinks <==> l in st.castLinks && l.series != seriesId
    requires forall l :: l in r.categoryLinks <==> l in st.categoryLinks && l.series != seriesId
    requires r.users == st.users && r.directors == st.directors && r.actors == st.actors
    requires r.tags == st.tags && r.languages == st.languages && r.categories == st.categories
    ensures References(st) ==> References(r)
  {
    if References(st) {
      var ids := SeriesIds(r.series);
      forall x | x in r.seasons ensures x.series in ids {
        var s :| s in st.series && s.id == x.series;
        assert s in r.series;
      }
      forall e | e in r.episodes ensures e.season in SeasonIds(r.seasons) {
        var x :| x in st.seasons && x.id == e.season;
        assert x in r.seasons;
      }
      forall v | v in r.reviews ensures v.series in ids {
        var s :| s in st.series && s.id == v.series;
        assert s in r.series;
      }
      forall l | l in r.likes && l.series.Some? ensures l.series.value in ids {
        var s :| s in st.series && s.id == l.series.value;
        assert s in r.series;
      }
      forall l | l in r.tagLinks ensures l.series in ids {
        var s :| s in st.series && s.id == l.series;
        assert s in r.series;
      }
      forall l | l in r.languageLinks ensures l.series in ids {
        var s :| s in st.series && s.id == l.series;
        assert s in r.series;
      }
      forall l | l in r.castLinks ensures l.series in ids {
        var s :| s in st.series && s.id == l.series;
        assert s in r.series;
      }
      forall l | l in r.categoryLinks ensures l.series in ids {
        var s :| s in st.series && s.id == l.series;
        assert s in r.series;
      }
    }
  }

  /** After deleting a series nothing counts as one of its episodes. */
  lemma DeleteSeriesLeavesNoEpisodes(st: Store, seriesId: int)
    ensures TotalEpisodes(DeleteSeries(st, seriesId).episodes, DeleteSeries(st, seriesId).seasons, seriesId) == 0
  {
    var r := DeleteSeries(st, seriesId);
    NoSeasonsNoEpisodes(r.episodes, r.seasons, seriesId);
  }

  /** The series `s` with its director column set to NULL if it was `directorId`. */
  function ClearDirector(s: Series, directorId: int): Series {
    if s.director == Some(directorId) then s.(director := None) else s
  }

  /** The series table with `directorId` cleared from every row; ids and
      slugs stay where they were. */
  function ClearDirectors(ss: seq<Series>, directorId: int): (r: seq<Series>)
    ensures |r| == |ss|
    ensures forall i :: 0 <= i < |ss| ==> r[i] == ClearDirector(ss[i], directorId)
    ensures SeriesIds(r) == SeriesIds(ss)
    ensures DistinctKeys(ss, SeriesIdOf) ==> DistinctKeys(r, SeriesIdOf)
    ensures DistinctKeys(ss, SeriesSlugOf) ==> DistinctKeys(r, SeriesSlugOf)
  {
    var r := seq(|ss|, i requires 0 <= i < |ss| => ClearDirector(ss[i], directorId));
    assert forall i :: 0 <= i < |ss| ==> SeriesIdOf(r[i]) == SeriesIdOf(ss[i]) && SeriesSlugOf(r[i]) == SeriesSlugOf(ss[i]);
    assert SeriesIds(r) == SeriesIds(ss) by {
      forall id | id in SeriesIds(ss) ensures id in SeriesIds(r) {
        var i :| 0 <= i < |ss| && ss[i].id == id;
        assert r[i] in r;
      }
    }
    r
  }

  /** The reference half of `Valid` survives nulling a director. */
  lemma ClearDirectorsKeepsReferences(st: Store, directorId: int)
    ensures References(st) ==>
      References(st.(directors := st.directors - {directorId}, series := ClearDirectors(st.series, directorId)))
  {
    if References(st) {
      var ss := ClearDirectors(st.series, directorId);
      forall s | s in ss && s.director.Some? ensures s.director.value in st.directors - {directorId} {
        var i :| 0 <= i < |ss| && ss[i] == s;
        assert st.series[i] in st.series;
      }
    }
  }

  /** Deleting a director only empties the director column of its series (`SET_NULL`). */
  function DeleteDirector(st: Store, directorId: int): (r: Store)
    ensures r.directors == st.directors - {directorId}
    ensures |r.series| == |st.series|
    ensures forall i :: 0 <= i < |r.series| ==>
      && r.series[i].(director := st.series[i].director) == st.series[i]
      && r.series[i].director == if st.series[i].director == Some(directorId) then None else st.series[i].director
    ensures forall i :: 0 <= i < |r.series| && st.series[i].director != Some(directorId) ==> r.series[i] == st.series[i]
    ensures r.(directors := st.directors, series := st.series) == st
    ensures Valid(st) ==> Valid(r)
  {
    var ss := ClearDirectors(st.series, directorId);
    ClearDirectorsKeepsReferences(st, directorId);
    st.(directors := st.directors - {directorId}, series := ss)
  }

  /** Deleting a user: the user's reviews and likes go with it (`CASCADE`). */
  function DeleteUser(st: Store, userId: int): (r: Store)
    ensures userId !in r.users && r.users == st.users - {userId}
    ensures forall v :: v in r.reviews <==> v in st.reviews && v.user != userId
    ensures forall l :: l in r.likes <==> l in st.likes && l.user != userId
    ensures r.(users := st.users, reviews := st.reviews, likes := st.likes) == st
    ensures Valid(st) ==> Valid(r)
  {
    var keepReview := (v: Review) => v.user != userId;
    var keepLike := (l: Like) => l.user != userId;
    KeepKeepsDistinct(st.reviews, keepReview, ReviewIdOf, Always);
    KeepKeepsDistinct(st.reviews, keepReview, ReviewKey, Always);
    KeepKeepsDistinct(st.likes, keepLike, LikeIdOf, Always);
    KeepKeepsDistinct(st.likes, keepLike, LikeKey, LikeHasSeries);
    st.(users := st.users - {userId}, reviews := Keep(st.reviews, keepReview), likes := Keep(st.likes, keepLike))
  }
}

=== FILE: drama_views.dfy ===
/** The home page aggregation of the drama service's own views
    (src/services/drama/views.py), a second copy of the API's. */
module DramaViews {
  import opened Seqs
  import opened DramaModels
  import ApiViews

  /** `HomeDramaListAPIView.get_queryset` of the drama service: the same
      four lists, built by the same filters, slices and ordering. */
  function HomeQueryset(all: seq<Series>, today: int): (r: ApiViews.HomeLists)
    ensures |r.featured| <= ApiViews.HomeListSize && |r.trending| <= ApiViews.HomeListSize
    ensures |r.upcoming| <= ApiViews.HomeListSize && |r.newest| <= ApiViews.HomeListSize
    ensures forall s :: s in r.featured ==> s in all && IsCurrentlyFeatured(s, today)
    ensures forall s :: s in r.trending ==> s in all && IsTrending(s)
    ensures forall s :: s in r.upcoming ==> s in all && s.releaseDate > today
    ensures IsSubseq(r.featured, all) && IsSubseq(r.trending, all) && IsSubseq(r.upcoming, all)
    ensures SortedDesc(r.newest, ApiViews.CreatedAtOf)
  {
    var featured := Keep(all, FeaturedOn(today));
    var trending := Keep(all, IsTrending);
    var upcoming := Keep(all, UpcomingOn(today));
    var sorted := SortDesc(all, ApiViews.CreatedAtOf);
    assert forall s :: FeaturedOn(today)(s) == IsCurrentlyFeatured(s, today);
    assert forall s :: UpcomingOn(today)(s) == IsUpcoming(s, today);
    KeepIsSubseq(all, FeaturedOn(today));
    KeepIsSubseq(all, IsTrending);
    KeepIsSubseq(all, UpcomingOn(today));
    TakeIsSubseq(featured, ApiViews.HomeListSize);
    TakeIsSubseq(trending, ApiViews.HomeListSize);
    TakeIsSubseq(upcoming, ApiViews.HomeListSize);
    SubseqTrans(Take(featured, ApiViews.HomeListSize), featured, all);
    SubseqTrans(Take(trending, ApiViews.HomeListSize), trending, all);
    SubseqTrans(Take(upcoming, ApiViews.HomeListSize), upcoming, all);
    assert forall s :: s in upcoming ==> s in all && s.releaseDate > today;
    ApiViews.HomeLists(Take(featured, ApiViews.HomeListSize), Take(trending, ApiViews.HomeListSize), Take(upcoming, ApiViews.HomeListSize), Take(sorted, ApiViews.HomeListSize))
  }

  /** For the same store and day both copies build the same four lists. */
  lemma AgreesWithApi(all: seq<Series>, today: int)
    ensures HomeQueryset(all, today) == ApiViews.HomeQueryset(all, today)
  {
  }
}

=== FILE: seqs.dfy ===
/** Generic facts about the sequence operations that the query layer uses:
    filtering (a `WHERE` clause or a list comprehension with a condition),
    slicing (`[:n]`) and ordering (`ORDER BY key DESC`). A table or query
    result is a sequence in store order. */
module Seqs {

  function Min(a: int, b: int): int {
    if a <= b then a else b
  }

  /** The elements of `s` that satisfy `p`, in the order they appear in `s`. */
  function Keep<T>(s: seq<T>, p: T -> bool): (r: seq<T>)
    ensures |r| <= |s|
    ensures forall x :: x in r ==> x in s && p(x)
    ensures forall x :: x in s && p(x) ==> x in r
    decreases |s|
  {
    if |s| == 0 then []
    else (if p(s[0]) then [s[0]] else []) + Keep(s[1..], p)
  }

  /** The first `n` elements of `s`, or all of `s` when it is shorter (Python's `s[:n]`). */
  function Take<T>(s: seq<T>, n: nat): (r: seq<T>)
    ensures |r| == Min(n, |s|)
    ensures forall i :: 0 <= i < |r| ==> r[i] == s[i]
  {
    s[..Min(n, |s|)]
  }

  /** `a` can be obtained from `b` by deleting elements: an order-preserving subsequence. */
  predicate IsSubseq<T(==)>(a: seq<T>, b: seq<T>)
    decreases |b|
  {
    if |a| == 0 then true
    else if |b| == 0 then false
    else if a[0] == b[0] then IsSubseq(a[1..], b[1..])
    else IsSubseq(a, b[1..])
  }

  /** Putting any element in front of `b` keeps `a` a subsequence of it. */
  lemma {:induction false} SubseqOfCons<T>(a: seq<T>, x: T, b: seq<T>)
    requires IsSubseq(a, b)
    ensures IsSubseq(a, [x] + b)
    decreases |a| + |b| + 1
  {
    assert ([x] + b)[1..] == b;
    if |a| != 0 && a[0] == x {
      SubseqDropHead(a, b);
    }
  }

  /** Dropping the first element of a subsequence leaves a subsequence. */
  lemma {:induction false} SubseqDropHead<T>(a: seq<T>, b: seq<T>)
    requires |a| > 0 && IsSubseq(a, b)
    ensures IsSubseq(a[1..], b)
    decreases |a| + |b|
  {
    assert [b[0]] + b[1..] == b;
    if a[0] == b[0] {
      SubseqOfCons(a[1..], b[0], b[1..]);
    } else {
      SubseqDropHead(a, b[1..]);
      SubseqOfCons(a[1..], b[0], b[1..]);
    }
  }

  /** Every sequence is a subsequence of itself. */
  lemma {:induction false} SubseqRefl<T>(s: seq<T>)
    ensures IsSubseq(s, s)
    decreases |s|
  {
    if |s| != 0 {
      SubseqRefl(s[1..]);
    }
  }

  /** A prefix is a subsequence. */
  lemma {:induction false} TakeIsSubseq<T>(s: seq<T>, n: nat)
    ensures IsSubseq(Take(s, n), s)
    decreases |s|
  {
    if n == 0 || |s| == 0 {
    } else {
      TakeIsSubseq(s[1..], n - 1);
      assert Take(s, n)[1..] == Take(s[1..], n - 1);
    }
  }

  /** Being a subsequence is transitive. */
  lemma {:induction false} SubseqTrans<T>(a: seq<T>, b: seq<T>, c: seq<T>)
    requires IsSubseq(a, b) && IsSubseq(b, c)
    ensures IsSubseq(a, c)
    decreases |c|
  {
    if |a| == 0 {
    } else if a[0] == c[0] && b[0] == c[0] {
      if a[0] == b[0] {
        SubseqTrans(a[1..], b[1..], c[1..]);
      }
    } else if b[0] == c[0] {
      // a[0] != b[0], so a embeds in b[1..], which embeds in c[1..]
      SubseqTrans(a, b[1..], c[1..]);
    } else {
      SubseqTrans(a, b, c[1..]);
      if a[0] == c[0] {
        SubseqDropHead(a, c[1..]);
      }
    }
  }

  /** Filtering returns an order-preserving subsequence of its input. */
  lemma {:induction false} KeepIsSubseq<T>(s: seq<T>, p: T -> bool)
    ensures IsSubseq(Keep(s, p), s)
    decreases |s|
  {
    if |s| == 0 {
    } else {
      KeepIsSubseq(s[1..], p);
      if p(s[0]) {
        assert Keep(s, p) == [s[0]] + Keep(s[1..], p);
      } else {
        assert Keep(s, p) == Keep(s[1..], p);
        SubseqOfCons(Keep(s[1..], p), s[0], s[1..]);
        assert [s[0]] + s[1..] == s;
      }
    }
  }

  /** Filtering twice with the same condition equals filtering once. */
  lemma {:induction false} KeepIdempotent<T>(s: seq<T>, p: T -> bool)
    ensures Keep(Keep(s, p), p) == Keep(s, p)
    decreases |s|
  {
    if |s| != 0 {
      KeepIdempotent(s[1..], p);
      var k := Keep(s, p);
      if p(s[0]) {
        assert k == [s[0]] + Keep(s[1..], p);
        assert k[0] == s[0] && k[1..] == Keep(s[1..], p);
        assert Keep(k, p) == [s[0]] + Keep(k[1..], p);
      } else {
        assert k == Keep(s[1..], p);
      }
    }
  }

  /** Filtering distributes over concatenation. */
  lemma {:induction false} KeepAppend<T>(a: seq<T>, b: seq<T>, p: T -> bool)
    ensures Keep(a + b, p) == Keep(a, p) + Keep(b, p)
    decreases |a|
  {
    if |a| == 0 {
      assert a + b == b;
    } else {
      assert (a + b)[0] == a[0];
      assert (a + b)[1..] == a[1..] + b;
      KeepAppend(a[1..], b, p);
    }
  }

  /** Filtering keeps every copy of a matching element and no copy of any
      other: the multiplicities of the result are those of `s`, restricted to `p`. */
  lemma {:induction false} KeepCount<T>(s: seq<T>, p: T -> bool, x: T)
    ensures multiset(Keep(s, p))[x] == if p(x) then multiset(s)[x] else 0
    decreases |s|
  {
    if |s| != 0 {
      KeepCount(s[1..], p, x);
      assert s == [s[0]] + s[1..];
      assert multiset(s) == multiset([s[0]]) + multiset(s[1..]);
    }
  }

  /** A prefix holds no element more often than the whole sequence. */
  lemma TakeSubMultiset<T>(s: seq<T>, n: nat)
    ensures multiset(Take(s, n)) <= multiset(s)
  {
    var k := Min(n, |s|);
    assert s == s[..k] + s[k..];
    assert multiset(s) == multiset(s[..k]) + multiset(s[k..]);
  }

  /** A condition that holds of no element filters everything out. */
  lemma {:induction false} KeepNone<T>(s: seq<T>, p: T -> bool)
    requires forall x :: x in s ==> !p(x)
    ensures Keep(s, p) == []
    decreases |s|
  {
    if |s| != 0 {
      assert s[0] in s;
      assert forall x :: x in s[1..] ==> x in s;
      KeepNone(s[1..], p);
    }
  }

  /** Two conditions that agree on every element of `s` filter it identically. */
  lemma {:induction false} KeepAgrees<T>(s: seq<T>, p: T -> bool, q: T -> bool)
    requires forall x :: x in s ==> p(x) == q(x)
    ensures Keep(s, p) == Keep(s, q)
    decreases |s|
  {
    if |s| != 0 {
      assert s[0] in s;
      assert forall x :: x in s[1..] ==> x in s;
      KeepAgrees(s[1..], p, q);
    }
  }

  /** A condition that holds of every element filters nothing out. */
  lemma {:induction false} KeepAll<T>(s: seq<T>, p: T -> bool)
    requires forall x :: x in s ==> p(x)
    ensures Keep(s, p) == s
    decreases |s|
  {
    if |s| != 0 {
      assert s[0] in s;
      assert forall x :: x in s[1..] ==> x in s;
      KeepAll(s[1..], p);
      assert [s[0]] + s[1..] == s;
    }
  }

  /** Position law of filtering: a matching element at index `i` of `s`
      sits in the filtered result right after the matches that precede it. */
  lemma KeepPosition<T>(s: seq<T>, p: T -> bool, i: int)
    requires 0 <= i < |s| && p(s[i])
    ensures |Keep(s[..i], p)| < |Keep(s, p)|
    ensures Keep(s, p)[|Keep(s[..i], p)|] == s[i]
  {
    assert s == s[..i] + s[i..];
    KeepAppend(s[..i], s[i..], p);
    assert Keep(s[i..], p)[0] == s[i];
  }

  function Always<T>(x: T): bool {
    true
  }

  /** No two rows of `s` for which `counted` holds share a key. This is a
      `UNIQUE` constraint; `counted` leaves out rows whose key holds a NULL,
      which SQL never treats as equal. */
  predicate DistinctWhere<T, K(==)>(s: seq<T>, key: T -> K, counted: T -> bool) {
    forall i, j :: 0 <= i < j < |s| && counted(s[i]) && counted(s[j]) ==> key(s[i]) != key(s[j])
  }

  /** No two rows of `s` share a key. */
  predicate DistinctKeys<T, K(==)>(s: seq<T>, key: T -> K) {
    DistinctWhere(s, key, Always)
  }

  /** Deleting rows never breaks a uniqueness constraint. */
  lemma {:induction false} KeepDistinctWhere<T, K>(s: seq<T>, p: T -> bool, key: T -> K, counted: T -> bool)
    requires DistinctWhere(s, key, counted)
    ensures DistinctWhere(Keep(s, p), key, counted)
    decreases |s|
  {
    if |s| != 0 {
      var tail := s[1..];
      assert DistinctWhere(tail, key, counted) by {
        forall i, j | 0 <= i < j < |tail| && counted(tail[i]) && counted(tail[j])
          ensures key(tail[i]) != key(tail[j])
        {
          assert tail[i] == s[i + 1] && tail[j] == s[j + 1];
        }
      }
      KeepDistinctWhere(tail, p, key, counted);
      var kt := Keep(tail, p);
      if p(s[0]) {
        var r := [s[0]] + kt;
        assert r == Keep(s, p);
        forall i, j | 0 <= i < j < |r| && counted(r[i]) && counted(r[j])
          ensures key(r[i]) != key(r[j])
        {
          if i == 0 {
            assert r[j] in kt;
            var k :| 0 <= k < |tail| && tail[k] == r[j];
            assert s[k + 1] == r[j];
          } else {
            assert r[i] == kt[i - 1] && r[j] == kt[j - 1];
          }
        }
      } else {
        assert Keep(s, p) == kt;
      }
    }
  }

  /** Implication form of `KeepDistinctWhere`, for use inside function bodies. */
  lemma KeepKeepsDistinct<T, K>(s: seq<T>, p: T -> bool, key: T -> K, counted: T -> bool)
    ensures DistinctWhere(s, key, counted) ==> DistinctWhere(Keep(s, p), key, counted)
  {
    if DistinctWhere(s, key, counted) {
      KeepDistinctWhere(s, p, key, counted);
    }
  }

  /** The index-based constraint read as a statement about row values:
      two different counted rows never share a key. */
  lemma DistinctRows<T, K>(s: seq<T>, key: T -> K, counted: T -> bool, a: T, b: T)
    requires DistinctWhere(s, key, counted)
    requires a in s && b in s && a != b && counted(a) && counted(b)
    ensures key(a) != key(b)
  {
    var i :| 0 <= i < |s| && s[i] == a;
    var j :| 0 <= j < |s| && s[j] == b;
    assert i != j;
  }

  /** Adding a row whose key no counted row holds keeps a uniqueness constraint. */
  lemma AppendDistinctWhere<T, K>(s: seq<T>, x: T, key: T -> K, counted: T -> bool)
    requires counted(x) ==> forall y :: y in s && counted(y) ==> key(y) != key(x)
    ensures DistinctWhere(s, key, counted) ==> DistinctWhere(s + [x], key, counted)
  {
    var r := s + [x];
    if DistinctWhere(s, key, counted) {
      forall i, j | 0 <= i < j < |r| && counted(r[i]) && counted(r[j])
        ensures key(r[i]) != key(r[j])
      {
        if j == |s| {
          assert r[i] in s;
        } else {
          assert r[i] == s[i] && r[j] == s[j];
        }
      }
    }
  }

  /** Position law of a filtered prefix (`[x for x in s if p(x)][:n]`): a
      matching element is in the result exactly when fewer than `n` matches
      precede it, and then it sits right after them. */
  lemma TakeKeepPosition<T>(s: seq<T>, p: T -> bool, n: nat, i: int)
    requires 0 <= i < |s| && p(s[i])
    ensures var before := |Keep(s[..i], p)|;
      before < n ==> before < |Take(Keep(s, p), n)| && Take(Keep(s, p), n)[before] == s[i]
  {
    KeepPosition(s, p, i);
  }

  /** A filtered prefix that leaves out a match is full. */
  lemma TakeKeepSkipsOnlyWhenFull<T>(s: seq<T>, p: T -> bool, n: nat, x: T)
    requires x in s && p(x) && x !in Take(Keep(s, p), n)
    ensures |Take(Keep(s, p), n)| == n
  {
    var k := Keep(s, p);
    assert |k| < n ==> Take(k, n) == k;
  }

  /** A fresh primary key: larger than every key in the table. */
  function FreshId<T>(s: seq<T>, id: T -> int): (r: int)
    ensures forall x :: x in s ==> id(x) < r
    decreases |s|
  {
    if |s| == 0 then 1
    else
      var rest := FreshId(s[1..], id);
      assert forall x :: x in s ==> x == s[0] || x in s[1..];
      if id(s[0]) < rest then rest else id(s[0]) + 1
  }

  /** `s` is ordered by `key`, largest first (`ORDER BY key DESC`). */
  predicate SortedDesc<T>(s: seq<T>, key: T -> int) {
    forall i, j :: 0 <= i < j < |s| ==> key(s[i]) >= key(s[j])
  }

  /** Places `x` into the sequence `t` before the first element whose key is smaller. */
  function Insert<T>(x: T, t: seq<T>, key: T -> int): (r: seq<T>)
    ensures multiset(r) == multiset(t) + multiset{x}
    ensures |r| == |t| + 1
    ensures r[0] == x || (|t| > 0 && r[0] == t[0])
    decreases |t|
  {
    if |t| == 0 || key(x) >= key(t[0]) then [x] + t
    else
      assert t == [t[0]] + t[1..];
      [t[0]] + Insert(x, t[1..], key)
  }

  /** Inserting into a descending sequence keeps it descending. */
  lemma {:induction false} InsertSorted<T>(x: T, t: seq<T>, key: T -> int)
    requires SortedDesc(t, key)
    ensures SortedDesc(Insert(x, t, key), key)
    decreases |t|
  {
    if |t| != 0 && key(x) < key(t[0]) {
      var rest := Insert(x, t[1..], key);
      InsertSorted(x, t[1..], key);
      var r := [t[0]] + rest;
      assert r == Insert(x, t, key);
      forall i, j | 0 <= i < j < |r|
        ensures key(r[i]) >= key(r[j])
      {
        if i == 0 {
          assert r[j] == rest[j - 1];
          if j == 1 {
            assert rest[0] == x || rest[0] == t[1];
          } else {
            assert key(rest[0]) >= key(rest[j - 1]);
            assert rest[0] == x || rest[0] == t[1];
          }
        }
      }
    }
  }

  /** `s` reordered by `key`, largest first; elements with equal keys keep their relative order. */
  function SortDesc<T>(s: seq<T>, key: T -> int): (r: seq<T>)
    ensures multiset(r) == multiset(s)
    ensures |r| == |s|
    ensures SortedDesc(r, key)
    decreases |s|
  {
    if |s| == 0 then []
    else
      assert s == [s[0]] + s[1..];
      var t := SortDesc(s[1..], key);
      InsertSorted(s[0], t, key);
      Insert(s[0], t, key)
  }

  /** Taking the first `n` of a descending sequence: no element left out
      has a larger key than an element kept. */
  lemma TopNDominates<T>(s: seq<T>, key: T -> int, n: nat)
    requires SortedDesc(s, key)
    ensures forall i, j :: 0 <= i < |Take(s, n)| <= j < |s| ==> key(s[j]) <= key(Take(s, n)[i])
  {
  }
}

=== FILE: users.dfy ===
/** The custom user record and its save hook (src/services/users/models.py). */
module Users {

  /** The two codes of the `USER_TYPE` choice list. */
  const AdminCode: string := "admin"
  const UserCode: string := "user"
  const UserTypeCodes: set<string> := {AdminCode, UserCode}

  /** A user row; `userType` is the stored `user_type` column. */
  datatype User = User(
    id: int,
    email: string,
    isStaff: bool,
    isSuperuser: bool,
    isActive: bool,
    userType: string)

  /** `User.save`: the role column is derived from the staff flag on every
      save, whatever it held before; nothing else is touched. */
  function Save(u: User): (r: User)
    ensures r.userType in UserTypeCodes
    ensures r.userType == AdminCode <==> u.isStaff
    ensures r.(userType := u.userType) == u
  {
    if u.isStaff then u.(userType := AdminCode) else u.(userType := UserCode)
  }

  /** The role a user had before saving plays no part in the result. */
  lemma SaveIgnoresPreviousType(u: User, previous: string)
    ensures Save(u.(userType := previous)) == Save(u)
  {
  }

  /** Saving a second time without touching `is_staff` changes nothing. */
  lemma SaveIdempotent(u: User)
    ensures Save(Save(u)) == Save(u)
  {
  }

  /** A user whose stored role already agrees with the staff flag. */
  predicate RoleConsistent(u: User) {
    u.userType == (if u.isStaff then AdminCode else UserCode)
  }

  /** Saving leaves a consistent user exactly as it was. */
  lemma SaveKeepsConsistent(u: User)
    requires RoleConsistent(u)
    ensures Save(u) == u
  {
  }
}

=== FILE: wrappers.dfy ===
/** The optional value used for nullable columns and absent request data. */
module Wrappers {

  /** A nullable value: `None` stands for SQL NULL or a missing key. */
  datatype Option<+T> = None | Some(value: T)

  /** The outcome of an operation that can be refused with an error. */
  datatype Result<+R, +E> = Success(value: R) | Failure(error: E)
}
